=== FILE: README.md ===
# Timesheets schedule engine and cell arithmetic in Dafny

This project models the core of a timesheet generator. The generator fills a monthly
spreadsheet of working hours in two steps:

- It builds the month's schedule from a weekly template. Each work day gets its weekday's template row when the day lies inside that row's validity window.
- It then completes the schedule at random until the month's net working time reaches a target.

The model covers these parts:

- **The calendar.** Gregorian month lengths, day numbers and weekdays. Twelve public holidays, five of them at fixed distances from Easter Sunday. The work days of a month are its days minus the holidays; weekends count as work days.
- **Net-hours accounting.** Each row's duration less a break penalty, summed over the rows.
- **Slots and time formatting.** The shrinking slot sequence of the completion step, and the `strfdelta` clock formatting that synthetic rows pass through.
- **Template filling.** `Schedule.fill`: the left merge with the template, the positional re-indexing, the validity filter and the scaffold row.
- **Autocompletion.** `Schedule.autocomplete`: the search loop, its escapes, and the final sort and filter.
- **Lookup tables.** The weekday and month tables.
- **The writer's cell arithmetic.** Parsing an A1-style cell reference, and placing a day's start, end and note cells from an anchor cell and an orientation.

Times are whole minutes; dates are `(year, month, day)` records. The random draws of the
source become parameters or demonic choices, so every contract holds whatever they turn out
to be. Exceptions the source lets escape become `Err` outcomes of the shared `Result` type
(module `Base`).

Modules:

- `Calendar`: dates, ordinals and weekdays.
- `Holidays`: Easter, the holiday list and work days.
- `Hours`: penalty, net time, slots and `strfdelta`.
- `Tables`: the lookup tables.
- `Template`: `fill`.
- `Frame`: index, sort and `dropna`.
- `Autocomplete`: `autocomplete`.
- `Cells`: the writer's cell positions.

## Model

| member | source | states |
|---|---|---|
| Calendar.DaysInMonth | schedule/_schedule.py:35 | A month has 28 to 31 days: February has 29 exactly in a leap year and 28 otherwise, and April, June, September and November have 30. |
| Calendar.NextDay | schedule/_schedule.py:46 | The day after a valid date is a valid date whose day number is one higher, across month and year ends. |
| Calendar.AddDays | schedule/_schedule.py:46-50 | Adding a whole number of days (positive or negative) to a valid date gives a valid date whose day number moves by exactly that many. |
| Calendar.OrderMatchesOrdinal | schedule/_schedule.py:65 | Comparing dates field by field agrees with comparing their day numbers, and two valid dates are equal exactly when their day numbers are. |
| Calendar.WeekdayAdvances | schedule/_schedule.py:131 | Consecutive days have consecutive weekdays (Monday = 0), Sunday wrapping round to Monday. |
| Calendar.Weekday | schedule/_schedule.py:131 | A valid date's weekday is a number from Monday (0) to Sunday (6). |
| Calendar.WeekdayExamples | schedule/_schedule.py:131 | Anchors the weekday numbering to known dates: 1 January of year 1 is a Monday, 25 December 2019 a Wednesday, 29 February 2024 a Thursday. |
| Holidays.Easter | schedule/_schedule.py:45 | Easter Sunday of a year is a valid date of that year between 22 March and 25 April. |
| Holidays.EasterIsSunday | schedule/_schedule.py:45 | For every year, the computed Easter Sunday falls on a Sunday. |
| Holidays.EasterIn2019 | schedule/_schedule.py:45 | Easter Sunday 2019 is 21 April. |
| Holidays.EasterIn2038 | schedule/_schedule.py:45 | Easter Sunday 2038 is 25 April, the last day Easter can fall on. |
| Holidays.EasterIn2285 | schedule/_schedule.py:45 | Easter Sunday 2285 is 22 March, the first day Easter can fall on. |
| Holidays.EasterOffset | schedule/_schedule.py:46-50 | A date from 2 days before to 50 days after Easter Sunday stays in the same year, and its day number differs from Easter's by the offset. |
| Holidays.HolidaysFor | schedule/_schedule.py:42-59 | The holiday list has twelve entries, all valid dates of the year. |
| Holidays.HolidayDates | schedule/_schedule.py:42-59 | The list holds, in order: 1 January, 8 March, Easter − 2, Easter, Easter + 1, 1 May, Easter + 40, Easter + 50, 3 October, 25, 26 and 31 December. Entries are not claimed distinct. |
| Holidays.HolidayList | schedule/_schedule.py:42-59 | The holiday list of a year has twelve valid dates of that year, and its fourth entry is that year's Easter Sunday. |
| Holidays.HolidayWeekdays | schedule/_schedule.py:45-50 | In every year's holiday list, Easter − 2 is a Friday, Easter a Sunday and Easter + 1 a Monday. `fathers_day` (Easter + 40) is a Friday, the day after Ascension Thursday, and `whitsun` (Easter + 50) is a Monday. |
| Holidays.AllDates | schedule/_schedule.py:34-39 | The dates of a month are exactly its valid days, as many as the month has, strictly ascending. |
| Holidays.Without | schedule/_schedule.py:65 | Filtering keeps a date exactly when it is listed and not excluded, preserves ascending order, and never lengthens the list. |
| Holidays.WithoutCount | schedule/_schedule.py:65 | Excluding a set of dates from a list without repeats removes at most as many entries as the set has. |
| Holidays.WorkDays | schedule/_schedule.py:62-66 | A date is a work day exactly when it is a valid day of the month and not a holiday of the year. Work days are ascending, and there are at least the month's length less twelve of them. |
| Hours.Penalty | schedule/_schedule.py:69-75 | The break is 0, 30 or 45 minutes and never exceeds a non-negative duration. |
| Hours.PenaltySteps | schedule/_schedule.py:69-75 | The break is 45 minutes exactly above 9 hours, 30 minutes exactly above 6 hours up to 9, and nothing up to 6 hours. So 9h costs 30, 9h01 costs 45, 6h costs 0 and 6h01 costs 30. |
| Hours.PenaltyMonotone | schedule/_schedule.py:69-75 | A longer block never costs a smaller break. |
| Hours.RowNetBounds | schedule/_schedule.py:79-80 | A row ending no earlier than it starts contributes between zero and its duration. |
| Hours.UntimedRowsCountNothing | schedule/_schedule.py:79-81 | Rows missing a start or an end time add nothing to the net time. |
| Hours.NetMinutes | schedule/_schedule.py:78-82 | When no row ends before it starts, the net working time of the rows is never negative. |
| Hours.NetAppend | schedule/_schedule.py:78-82 | The net time of two row lists put together is the sum of their net times. |
| Hours.NetPermutation | schedule/_schedule.py:78-82 | Any reordering of the rows has the same net time. |
| Hours.SlotsFrom | schedule/_schedule.py:86 | A descending range from a start value in steps of 15 has as many entries as fit above zero, each the start less 15 times its position, all positive. |
| Hours.SlotsAreArange | schedule/_schedule.py:85-87 | The slot list is the descending range from 5 hours in quarter-hour steps. |
| Hours.Slots | schedule/_schedule.py:85-87 | The slot generator yields exactly twenty slots. |
| Hours.SlotSequence | schedule/_schedule.py:85-87 | There are twenty slots from 300 down to 15 minutes, strictly decreasing, each a positive whole quarter hour of at most 5 hours, so none draws a break. |
| Hours.Strfdelta | schedule/_schedule.py:90-94 | The days, hours, minutes and seconds recompose the total seconds, with hours below 24 and minutes and seconds below 60. |
| Hours.ClockRoundTrip | schedule/_schedule.py:90-94 | Formatting a whole number of minutes and reading the clock back gives the time of day: exact below 24 hours, wrapping at midnight above. |
| Tables.DayOfWeek | schedule/_schedule.py:112 | A label gives a weekday exactly when the table lists it, and the weekday is between 0 and 6. |
| Tables.MondayLabels | schedule/_schedule.py:11 | All five spellings of Monday give the calendar weekday of Monday, 2019-12-23, so the table numbers days as the date index's `dayofweek` does. |
| Tables.TuesdayLabels | schedule/_schedule.py:12 | All five spellings of Tuesday give the calendar weekday of Tuesday, 2019-12-24, so the table numbers days as the date index's `dayofweek` does. |
| Tables.WednesdayLabels | schedule/_schedule.py:13 | All five spellings of Wednesday give the calendar weekday of Wednesday, 2019-12-25, so the table numbers days as the date index's `dayofweek` does. |
| Tables.ThursdayLabels | schedule/_schedule.py:14 | All five spellings of Thursday give the calendar weekday of Thursday, 2019-12-26, so the table numbers days as the date index's `dayofweek` does. |
| Tables.FridayLabels | schedule/_schedule.py:15 | All five spellings of Friday give the calendar weekday of Friday, 2019-12-27, so the table numbers days as the date index's `dayofweek` does. |
| Tables.SaturdayLabels | schedule/_schedule.py:16 | All five spellings of Saturday give the calendar weekday of Saturday, 2019-12-28, so the table numbers days as the date index's `dayofweek` does. |
| Tables.SundayLabels | schedule/_schedule.py:17 | All five spellings of Sunday give the calendar weekday of Sunday, 2019-12-29, so the table numbers days as the date index's `dayofweek` does. |
| Tables.DaysAreWeekdays | schedule/_schedule.py:11-17 | Every weekday label maps to a number from Monday (0) to Sunday (6). |
| Tables.DaysCoverWeek | schedule/_schedule.py:11-17 | Every weekday from 0 to 6 has at least one label. |
| Tables.MonthsRevKeys | schedule/_schedule.py:30 | The reverse month table has exactly the keys 1 to 12. |
| Tables.MonthNameRoundTrip | schedule/_schedule.py:18-30 | A German month name goes to its number and back to the same name. |
| Tables.MonthNumberRoundTrip | schedule/_schedule.py:18-30 | A month number goes to its name and back to the same number. |
| Template.LoadRow | schedule/_schedule.py:109-112 | A loaded template row is valid on a date exactly when its `day_of_week` label is listed for that date's calendar weekday and the date lies in the row's validity window. An unlisted label gives no weekday. |
| Template.RowsForWeekday | schedule/_schedule.py:132-134 | The template rows a weekday joins with are exactly the template rows carrying that weekday, each as many times as the template holds it. |
| Template.MergeLeft | schedule/_schedule.py:132-134 | The left merge yields at least one row per work day. |
| Template.MergeAligned | schedule/_schedule.py:132-135 | The merge yields exactly one row per work day if and only if no work day's weekday has two template rows. Then the row at each position belongs to the work day at that position, so the positional re-indexing is sound. |
| Template.KeepValid | schedule/_schedule.py:136-137 | The filtered rows are exactly the positions whose work day lies inside the template row's window, each carrying that row's data. They are ascending when the work days are. |
| Template.KeptFromTemplate | schedule/_schedule.py:136-137 | Every kept row is on a work day and carries a template row valid on that day. |
| Template.CoveredKept | schedule/_schedule.py:136-137 | With at most one template row per weekday, every work day some template row is valid on is kept. |
| Template.FillDays | schedule/_schedule.py:129-142 | Over any ascending work-day index the fill has the properties listed for `Template.Fill`. |
| Template.Fill | schedule/_schedule.py:128-142 | Fill fails with the length mismatch exactly when some work day's weekday has two template rows. Otherwise the rows are ascending and on work days. When some work day is covered, every row comes from a template row valid on its date, and every covered day gets a row. When none is covered, the result is the single empty scaffold row on the first work day. |
| Frame.DatesOf | schedule/_schedule.py:153 | A date is in the index exactly when some row carries it. |
| Frame.Earliest | schedule/_schedule.py:147 | The earliest date of a non-empty frame is in its index and no row's date comes before it. |
| Frame.Insert | schedule/_schedule.py:163 | Inserting a row adds exactly one copy of it. |
| Frame.InsertOrdered | schedule/_schedule.py:163 | Inserting into a sorted list keeps it sorted, and inserting a new date into a strictly ascending list keeps it strictly ascending. |
| Frame.SortByDate | schedule/_schedule.py:163 | Sorting by date gives a permutation of the rows in date order. |
| Frame.SortAscending | schedule/_schedule.py:163 | Sorting rows whose dates are distinct gives strictly ascending dates. |
| Frame.DropUnstarted | schedule/_schedule.py:163 | Dropping keeps exactly the rows with a start time, each as many times as it occurs, drops every row without one, and leaves the net time unchanged. |
| Frame.DropOrdered | schedule/_schedule.py:163 | Dropping rows keeps sorted lists sorted and ascending lists ascending. |
| Frame.Finish | schedule/_schedule.py:163 | The returned frame holds exactly the started rows of the input, each as many times as in the input. It is sorted by date, strictly ascending when the input dates are distinct, and has the input's net time. |
| Autocomplete.Notes | schedule/_schedule.py:113-116 | The note choices have at least two entries, include the empty note, and offer an activity exactly when it is listed. |
| Autocomplete.MonthWorkDays | schedule/_schedule.py:147 | The work days autocomplete draws from are exactly the valid non-holiday days of the month and year of the frame's earliest date, strictly ascending, at least sixteen of them. |
| Autocomplete.Unscheduled | schedule/_schedule.py:153 | The pool holds exactly the work days that no row is on, keeps their ascending order, and is no longer than the work-day list. |
| Autocomplete.PoolShrinks | schedule/_schedule.py:153-157 | Scheduling a row on a pool day leaves exactly one day fewer in the pool. |
| Autocomplete.CreateRow | schedule/_schedule.py:97-105 | The row creation fails with `NoUnscheduledDay` exactly when the pool is empty. Otherwise the row is on the drawn pool day with the drawn note and starts at the drawn hour. Its end is the start plus the slot modulo a day. For a slot of at most 5 hours it ends by 19:00 and counts exactly the slot. |
| Autocomplete.Step | schedule/_schedule.py:151-160 | One iteration fails with `NoUnscheduledDay` exactly when the pool is empty, and with `SlotsExhausted` exactly when a row does not fit on the last slot. A commit appends one fitting row on the pool day at the drawn index and keeps the net time within the target. A rejection changes nothing but the slot, which advances by one. |
| Autocomplete.DrawnRow | schedule/_schedule.py:97-100 | A row built from admissible draws and a slot starts on a whole hour from 06:00 to 14:00, lasts one of the slots and carries one of the notes. |
| Autocomplete.AddedRowsMeaning | schedule/_schedule.py:153-157 | The appended rows all have distinct dates. Each is on a work day of the month that the input frame does not hold, and each is a row `create_row` can produce. |
| Autocomplete.CommitKeeps | schedule/_schedule.py:153-157 | A committed iteration preserves the loop invariant, including that net time never exceeds the target. |
| Autocomplete.Target | schedule/_schedule.py:145-146 | The target fails exactly when the band is empty; otherwise it lies between the total less the allowed undertime and the total plus the allowed overtime. |
| Autocomplete.SearchLoop | schedule/_schedule.py:148-162 | The loop runs at most as many iterations as there are work days and slots together. It never exceeds the target. A normal exit reaches the target exactly, or returns the input unchanged when that was already at or above the target. Escapes happen only below the target. |
| Autocomplete.Autocomplete | schedule/_schedule.py:144-163 | It fails with `ErrorBandEmpty` exactly when the error band is empty, and fails otherwise only below the target. On success it returns the sorted, started rows of the input plus the added rows, with net time equal to the target (or unchanged when already reached). The added rows are on distinct unscheduled work days of the month and are rows `create_row` can produce. Iterations are bounded by work days plus slots. |
| Cells.ColumnOf | writer/_writer.py:25 | The column of a letter group, summed over the reversed letters with powers of 26, equals the left-to-right reading: each letter multiplies the column so far by 26 and adds its value (A = 1 to Z = 26). |
| Cells.AppendLetter | writer/_writer.py:25 | Appending a letter multiplies the column by 26 and adds the letter's value. |
| Cells.ColumnExamples | writer/_writer.py:25 | A is 1, Z is 26, AA is 27, AZ is 52, BA is 53, ZZ is 702 and AAA is 703. |
| Cells.ColumnRange | writer/_writer.py:25 | The column of n letters lies between the column of n A's and 26 times it, so it is at least 1 and grows with the length. |
| Cells.LengthsOrdered | writer/_writer.py:25 | Every column of a shorter letter string is smaller than every column of a longer one. |
| Cells.ColumnInjective | writer/_writer.py:25 | Different letter strings give different columns. |
| Cells.ColumnLettersRoundTrip | writer/_writer.py:25 | The letters written for a positive column read back as that column. |
| Cells.LettersRoundTrip | writer/_writer.py:25 | Every non-empty capital-letter string is the name of its column, so the reading is a bijection onto the positive integers. |
| Cells.DecimalRoundTrip | writer/_writer.py:26 | The decimal digits of a number read back as the number. |
| Cells.DecimalValue | writer/_writer.py:26 | The row read from a digit string is a number with at most as many digits: at least 0 and below 10 to the power of the string's length. |
| Cells.LeadingZero | writer/_writer.py:26 | A leading zero does not change the row number read. |
| Cells.LetterRun | writer/_writer.py:21-22 | The letter group is the longest prefix of capital letters. |
| Cells.DigitRun | writer/_writer.py:21-22 | The digit group is the longest prefix of ASCII digits. |
| Cells.ConvertCellPosition | writer/_writer.py:20-27 | The conversion succeeds exactly when the text starts with a letter group followed by a digit group, and fails with `MalformedCell` otherwise. On success the result is the row read from the whole digit group, up to the first character that is not a digit, then the column read from the letters. |
| Cells.CellRoundTrip | writer/_writer.py:20-27 | Converting the reference written for a row and a positive column gives back that row and column. |
| Cells.ConvertPrefix | writer/_writer.py:20-27 | A letter group, then a digit group, then any text not starting with a digit converts to the digit group's row and the letter group's column; the trailing text is ignored. |
| Cells.ConvertExample | writer/_writer.py:20-27 | "A123", alone or followed by text not starting with a digit, is row 123 of column 1. |
| Cells.TrailingExample | writer/_writer.py:20-27 | "AB7" followed by text not starting with a digit, such as ":C9", is row 7 of column 28. |
| Cells.MalformedExamples | writer/_writer.py:21-23 | "A" (no digit group) and "1A" (no letter group first) are `MalformedCell`. |
| Cells.OrientationNamed | writer/_writer.py:14-17 | Exactly the names "vertical" and "horizontal" select an orientation. |
| Cells.Direction | writer/_writer.py:14-15 | Each orientation's step from one day to the next is one cell along its axis and none across it. |
| Cells.Across | writer/_writer.py:16-17 | The step to a day's other cells is one cell across the orientation's axis, none along it, and equals the other orientation's day step. |
| Cells.GetPositions | writer/_writer.py:73-78 | The start cell is the given number of days from the anchor along the orientation: vertical moves only the row, horizontal only the column. The end and note cells share the start's coordinate along the orientation and lie the two offsets beside the anchor across it. |
| Cells.DayRoundTrip | writer/_writer.py:73-75 | The day number can be read back from its start cell. |
| Cells.DistinctDays | writer/_writer.py:14-15 | Distinct days get distinct start cells. |

## Left out

- Reading `schedule.csv`, `activities.txt` and the configuration file. The template, activities and settings are parameters.
- The `dateutil` Easter function is not part of this model. `Holidays.Easter` computes Easter Sunday with the anonymous Gregorian algorithm instead. The holiday list needs only that the date falls between 22 March and 25 April, which is proved. `Holidays.EasterIn2019`, `Holidays.EasterIn2038` and `Holidays.EasterIn2285` pin it to known Easter dates, including both ends of that window.
- pandas and numpy: frames are sequences of rows, timedeltas are whole minutes, and dates are records.
- pandas' `Timestamp` range. `pd.date_range` and `pd.to_datetime` only represent 1677-09-21 to 2262-04-11 and raise `OutOfBoundsDatetime` outside it. The model uses `datetime`'s calendar for every year from 1 on, so it has no such error. The members that compute for years pandas would reject are listed below.
- Holidays.AllDates: returns the month's days for every year from 1 on; `pd.date_range` raises `OutOfBoundsDatetime` for a month outside pandas' range.
- Holidays.HolidayList: returns twelve dates for every year from 1 on; `pd.to_datetime` raises `OutOfBoundsDatetime` when a holiday falls outside pandas' range.
- Holidays.WorkDays: computes work days for every year from 1 on; the source raises `OutOfBoundsDatetime` through `get_all_dates` and `get_holidays` outside pandas' range.
- Template.Fill: never fails for the year, only with `IndexLengthMismatch`; the source raises `OutOfBoundsDatetime` first for a month outside pandas' range.
- Autocomplete.Autocomplete: has no `OutOfBoundsDatetime` outcome either, for the same reason.
- Floating point: `get_net_working_hours` divides by one hour. The model compares whole minutes against 60 times the whole-hour target, which is the same comparison for whole-minute times.
- `total_hours`, `max_overtime`, `max_undertime`: read as text and parsed with `int()`, so a non-integer setting raises `ValueError`. The model takes whole numbers.
- The random generators and their distributions. Draws are parameters constrained to their ranges (`Autocomplete.Step`, `Autocomplete.Target`) or demonic choices inside `Autocomplete.SearchLoop`, so nothing depends on their probabilities.
- `avoid_weekends` and `start_sheet` are read but never used by the core. No weekend exclusion is modelled.
- `sort_index` is not stable for rows with equal dates. `Frame.SortByDate` is a stable insertion sort, so it fixes one order among such rows where pandas may produce another.
- Autocomplete.Autocomplete: its success value is `Frame.Finish(df + added)`, which fixes the order of rows that share a date. pandas' `sort_index` need not produce that order. Only an input frame with repeated dates has such rows: the added rows always have fresh dates.
- `Frame.Finish`: its contracts do not name which of several rows with the same date comes first.
- `\d` in Python's `re` also matches non-ASCII decimal digits, and `int()` reads them. `Cells.ConvertCellPosition` accepts ASCII digits only.
- Writing cells with openpyxl, number formats and fonts, PDF extraction and opening the spreadsheet program: all I/O.
- `strfdelta` string formatting is not modelled. Only the `divmod` arithmetic is (`Hours.Strfdelta`), and reading the text back is `Hours.ClockMinutes`.
- `Autocomplete.Autocomplete` requires a non-empty frame, as `df.index.min().year` does. The scaffold row `fill` returns has a date in the index, so the search never schedules that day.
- `Template.Fill` follows the code rather than assuming at most one template row per weekday. A weekday with two rows makes `set_index` raise a length mismatch (`IndexLengthMismatch`), and `Template.MergeAligned` proves when that happens.

=== FILE: autocomplete.dfy ===
/** `Schedule.autocomplete` of `schedule/_schedule.py`: rows on unscheduled work days are added,
    in ever shorter slots, until the month's net time reaches the target; the result is sorted
    by date and rows without a start time are dropped. The random draws are left open: every
    contract here holds whatever the draws turn out to be. */
module Autocomplete {
  import opened Base
  import opened Calendar
  import opened Holidays
  import opened Hours
  import opened Frame

  /** `Schedule.activities` after `[None, None]` is appended: the notes a new row may carry. */
  function Notes(activities: seq<string>): (ns: seq<Option<string>>)
    ensures |ns| >= 2 && None in ns
    ensures forall a :: a in activities <==> Some(a) in ns
  {
    var ns := seq(|activities|, i requires 0 <= i < |activities| => Some(activities[i])) + [None, None];
    assert forall i :: 0 <= i < |activities| ==> ns[i] == Some(activities[i]);
    assert forall i :: |activities| <= i < |ns| ==> ns[i] == None;
    ns
  }

  /** `work_days[~work_days.isin(df.index)]`: the work days no row is scheduled on yet. */
  function Unscheduled(workDays: seq<Date>, rows: seq<Entry>): (pool: seq<Date>)
    ensures forall d :: d in pool <==> d in workDays && d !in DatesOf(rows)
    ensures StrictlyAscending(workDays) ==> StrictlyAscending(pool)
    ensures |pool| <= |workDays|
  {
    Without(workDays, DatesOf(rows))
  }

  /** Scheduling a row on an unscheduled work day leaves one work day fewer unscheduled. */
  lemma PoolShrinks(workDays: seq<Date>, rows: seq<Entry>, e: Entry)
    requires StrictlyAscending(workDays)
    requires e.date in Unscheduled(workDays, rows)
    ensures |Unscheduled(workDays, rows + [e])| == |Unscheduled(workDays, rows)| - 1
  {
    assert (rows + [e])[..|rows|] == rows;
    assert DatesOf(rows + [e]) == DatesOf(rows) + {e.date};
    WithoutOneMore(workDays, DatesOf(rows), e.date);
  }

  /** `create_row(indexes, slot, note)` with the random day position `day` and start hour `hour`
      (`np.random.randint(6, 15)`). The times pass through `strfdelta` and are read back, so the
      end is the start plus the slot modulo a day. An empty `indexes` makes
      `np.random.randint(0, 0)` raise. */
  function CreateRow(pool: seq<Date>, slot: int, note: Option<string>, day: int, hour: int): (r: Result<Entry>)
    requires |pool| > 0 ==> 0 <= day < |pool|
    requires 6 <= hour < 15
    ensures r.Err? <==> |pool| == 0
    ensures r.Err? ==> r.error == NoUnscheduledDay
    ensures r.Ok? ==> r.value.date == pool[day] && r.value.note == note
    ensures r.Ok? ==> r.value.start == Some(60 * hour) && r.value.end == Some((60 * hour + slot) % 1440)
    ensures r.Ok? && 0 < slot <= 300 ==>
              r.value.end == Some(60 * hour + slot) && 60 * hour + slot <= 19 * 60 && RowNet(r.value) == slot
  {
    if |pool| == 0 then Err(NoUnscheduledDay)
    else
      var start := 60 * hour;
      ClockRoundTrip(start);
      ClockRoundTrip(start + slot);
      Ok(Entry(pool[day], Some(ClockMinutes(Strfdelta(start * 60))),
               Some(ClockMinutes(Strfdelta((start + slot) * 60))), note))
  }

  /** The state of the search loop: the rows so far and the position in `generate_slot()`. */
  datatype Search = Search(rows: seq<Entry>, slot: nat)

  /** The random outcomes of one iteration: the activity, the day position and the start hour. */
  datatype Draw = Draw(note: Option<string>, day: int, hour: int)

  /** Draws the random generators can produce for a pool of unscheduled days. */
  predicate Admissible(pool: seq<Date>, d: Draw) {
    6 <= d.hour < 15 && (|pool| > 0 ==> 0 <= d.day < |pool|)
  }

  /** What a committed iteration did: one row appended on a work day that was unscheduled, with
      the drawn note and start hour and the current slot as its length, so the net time grew by
      exactly the slot without passing the target, and one work day fewer is unscheduled. */
  predicate Committed(workDays: seq<Date>, target: int, s: Search, t: Search, d: Draw)
    requires s.slot < |Slots()|
  {
    var length := Slots()[s.slot];
    && t.slot == s.slot
    && |t.rows| == |s.rows| + 1 && t.rows[..|s.rows|] == s.rows
    && 0 <= d.day < |Unscheduled(workDays, s.rows)|
    && t.rows[|s.rows|].date == Unscheduled(workDays, s.rows)[d.day]
    && t.rows[|s.rows|].note == d.note
    && t.rows[|s.rows|].start == Some(60 * d.hour)
    && t.rows[|s.rows|].end == Some(60 * d.hour + length)
    && NetMinutes(t.rows) == NetMinutes(s.rows) + length <= target
    && |Unscheduled(workDays, t.rows)| == |Unscheduled(workDays, s.rows)| - 1
  }

  /** One pass of the `while` body with net times in minutes: build a row of the current slot on
      an unscheduled day; keep it if the net time stays within the target, otherwise move to the
      next slot. The `next` call that finds the slots exhausted runs inside the
      `except AssertionError` handler, so its `StopIteration` escapes rather than ending the loop. */
  function Step(workDays: seq<Date>, target: int, s: Search, d: Draw): (r: Result<Search>)
    requires StrictlyAscending(workDays)
    requires s.slot < |Slots()|
    requires Admissible(Unscheduled(workDays, s.rows), d)
    ensures r == Err(NoUnscheduledDay) <==> |Unscheduled(workDays, s.rows)| == 0
    ensures r == Err(SlotsExhausted) <==>
              |Unscheduled(workDays, s.rows)| > 0 && NetMinutes(s.rows) + Slots()[s.slot] > target
              && s.slot == |Slots()| - 1
    ensures r.Err? ==> r.error == NoUnscheduledDay || r.error == SlotsExhausted
    ensures r.Ok? && r.value.slot == s.slot ==> Committed(workDays, target, s, r.value, d)
    ensures r.Ok? && r.value.slot != s.slot ==>
              NetMinutes(s.rows) + Slots()[s.slot] > target && r.value == Search(s.rows, s.slot + 1)
  {
    var pool := Unscheduled(workDays, s.rows);
    var length := Slots()[s.slot];
    match CreateRow(pool, length, d.note, d.day, d.hour)
    case Err(f) => Err(f)
    case Ok(row) =>
      if NetMinutes(s.rows) + RowNet(row) <= target then
        assert NetMinutes([row]) == RowNet(row);
        NetAppend(s.rows, [row]);
        PoolShrinks(workDays, s.rows, row);
        assert (s.rows + [row])[..|s.rows|] == s.rows;
        Ok(Search(s.rows + [row], s.slot))
      else if s.slot + 1 < |Slots()| then Ok(Search(s.rows, s.slot + 1))
      else Err(SlotsExhausted)
  }

  /** `pd.Timedelta(hours=np.random.randint(6, 15))` in minutes: the whole hours 06:00 to 14:00. */
  function StartTimes(): (ts: seq<int>)
    ensures |ts| == 9
  {
    seq(9, i requires 0 <= i < 9 => 360 + 60 * i)
  }

  /** A row `create_row` can produce: a note drawn from the activities, a start on a whole hour
      from 06:00 to 14:00, and one of the slots as its length. */
  predicate Synthesized(e: Entry, activities: seq<string>) {
    && e.note in Notes(activities)
    && e.start.Some? && e.end.Some?
    && e.start.value in StartTimes()
    && e.end.value - e.start.value in Slots()
  }

  /** A row built from admissible draws and one of the slots is one `create_row` can produce. */
  lemma DrawnRow(e: Entry, activities: seq<string>, d: Draw, slot: nat)
    requires d.note in Notes(activities) && 6 <= d.hour < 15 && slot < |Slots()|
    requires e.note == d.note && e.start == Some(60 * d.hour) && e.end == Some(60 * d.hour + Slots()[slot])
    ensures Synthesized(e, activities)
  {
    assert e.start.value == StartTimes()[d.hour - 6];
    assert e.end.value - e.start.value == Slots()[slot];
  }

  /** A row the search may append after `before`: on a work day of the month that neither `df`
      nor the rows added before it schedule, and one `create_row` can produce. */
  predicate FreshRow(workDays: seq<Date>, df: seq<Entry>, activities: seq<string>, before: seq<Entry>, e: Entry) {
    e.date in workDays && e.date !in DatesOf(df + before) && Synthesized(e, activities)
  }

  /** The rows the search added to `df`, each fresh when it was appended. */
  predicate AddedRows(workDays: seq<Date>, df: seq<Entry>, added: seq<Entry>, activities: seq<string>)
    decreases |added|
  {
    |added| == 0
    || (AddedRows(workDays, df, added[..|added| - 1], activities)
        && FreshRow(workDays, df, activities, added[..|added| - 1], added[|added| - 1]))
  }

  /** What `AddedRows` means row by row: every added row lies on a work day of the month that `df`
      does not schedule, no two share a date, and each is one `create_row` can produce. */
  lemma AddedRowsMeaning(workDays: seq<Date>, df: seq<Entry>, added: seq<Entry>, activities: seq<string>)
    requires AddedRows(workDays, df, added, activities)
    ensures DistinctDates(added)
    ensures forall i :: 0 <= i < |added| ==>
              added[i].date in workDays && added[i].date !in DatesOf(df) && Synthesized(added[i], activities)
  {
    AddedRowsDistinct(workDays, df, added, activities);
    AddedRowsFresh(workDays, df, added, activities);
  }

  lemma {:induction false} AddedRowsDistinct(workDays: seq<Date>, df: seq<Entry>, added: seq<Entry>, activities: seq<string>)
    requires AddedRows(workDays, df, added, activities)
    ensures DistinctDates(added)
  {
    if |added| > 0 {
      var init := added[..|added| - 1];
      var e := added[|added| - 1];
      AddedRowsDistinct(workDays, df, init, activities);
      FreshDate(df, init, e.date);
      forall i, j | 0 <= i < j < |added| ensures added[i].date != added[j].date {
        assert added[i] == init[i];
        if j < |init| {
          assert added[j] == init[j];
        }
      }
    }
  }

  lemma AddedRowsFresh(workDays: seq<Date>, df: seq<Entry>, added: seq<Entry>, activities: seq<string>)
    requires AddedRows(workDays, df, added, activities)
    ensures forall i :: 0 <= i < |added| ==>
              added[i].date in workDays && added[i].date !in DatesOf(df) && Synthesized(added[i], activities)
  {
    forall i | 0 <= i < |added|
      ensures added[i].date in workDays && added[i].date !in DatesOf(df) && Synthesized(added[i], activities)
    {
      AddedRowAt(workDays, df, added, activities, i);
    }
  }

  /** The `i`-th added row was fresh when it was appended. */
  lemma {:induction false} AddedRowAt(workDays: seq<Date>, df: seq<Entry>, added: seq<Entry>, activities: seq<string>, i: int)
    requires AddedRows(workDays, df, added, activities) && 0 <= i < |added|
    ensures added[i].date in workDays && added[i].date !in DatesOf(df) && Synthesized(added[i], activities)
    decreases |added|
  {
    var init := added[..|added| - 1];
    if i == |added| - 1 {
      FreshDate(df, init, added[i].date);
    } else {
      AddedRowAt(workDays, df, init, activities, i);
      assert added[i] == init[i];
    }
  }

  /** A date missing from the index of `df + added` is missing from both parts. */
  lemma FreshDate(df: seq<Entry>, added: seq<Entry>, d: Date)
    requires d !in DatesOf(df + added)
    ensures d !in DatesOf(df)
    ensures forall j :: 0 <= j < |added| ==> added[j].date != d
  {
    forall j | 0 <= j < |added| ensures added[j].date != d {
      assert (df + added)[|df| + j] == added[j];
    }
    forall i | 0 <= i < |df| ensures df[i].date != d {
      assert (df + added)[i] == df[i];
    }
  }

  /** Appending rows on dates `df` does not hold, no two alike, keeps the dates distinct. */
  lemma DistinctAppend(df: seq<Entry>, added: seq<Entry>)
    requires DistinctDates(df) && DistinctDates(added)
    requires forall j :: 0 <= j < |added| ==> added[j].date !in DatesOf(df)
    ensures DistinctDates(df + added)
  {
    var all := df + added;
    forall i, j | 0 <= i < j < |all| ensures all[i].date != all[j].date {
      if j >= |df| {
        assert all[j] == added[j - |df|];
        if i < |df| {
          assert all[i].date in DatesOf(df);
        } else {
          assert all[i] == added[i - |df|];
        }
      }
    }
  }

  /** What holds of the search loop at the top of every iteration. */
  predicate LoopInvariant(workDays: seq<Date>, df: seq<Entry>, activities: seq<string>, target: int,
                          s: Search, added: seq<Entry>) {
    && s.slot < |Slots()|
    && s.rows == df + added
    && AddedRows(workDays, df, added, activities)
    && |Unscheduled(workDays, s.rows)| + |added| <= |workDays|
    && (NetMinutes(df) >= target ==> added == [])
    && (NetMinutes(df) < target ==> NetMinutes(s.rows) <= target)
  }

  /** A committed iteration keeps the loop invariant, with its new row counted as added. */
  lemma CommitKeeps(workDays: seq<Date>, df: seq<Entry>, activities: seq<string>, target: int,
                    s: Search, added: seq<Entry>, t: Search, d: Draw)
    requires LoopInvariant(workDays, df, activities, target, s, added)
    requires NetMinutes(s.rows) < target
    requires d.note in Notes(activities) && 6 <= d.hour < 15
    requires Committed(workDays, target, s, t, d)
    ensures t.rows == s.rows + [t.rows[|s.rows|]]
    ensures LoopInvariant(workDays, df, activities, target, t, added + [t.rows[|s.rows|]])
  {
    var e := t.rows[|s.rows|];
    AppendLast(s.rows, t.rows, df, added);
    CommitAdded(workDays, df, activities, target, added, s, t, d);
    assert NetMinutes(df) < target by {
      if added == [] {
        assert s.rows == df;
      }
    }
    assert NetMinutes(t.rows) <= target;
    assert |Unscheduled(workDays, t.rows)| + |added| + 1 <= |workDays|;
  }

  /** A list one longer than `rows` that starts with `rows` is `rows` and its last entry. */
  lemma AppendLast(rows: seq<Entry>, longer: seq<Entry>, df: seq<Entry>, added: seq<Entry>)
    requires |longer| == |rows| + 1 && longer[..|rows|] == rows && rows == df + added
    ensures longer == rows + [longer[|rows|]] && longer == df + (added + [longer[|rows|]])
  {
    assert longer == longer[..|rows|] + [longer[|rows|]];
  }

  /** A committed iteration extends the added rows by its new row. */
  lemma CommitAdded(workDays: seq<Date>, df: seq<Entry>, activities: seq<string>, target: int,
                    added: seq<Entry>, s: Search, t: Search, d: Draw)
    requires s.slot < |Slots()| && s.rows == df + added
    requires AddedRows(workDays, df, added, activities)
    requires d.note in Notes(activities) && 6 <= d.hour < 15
    requires Committed(workDays, target, s, t, d)
    ensures AddedRows(workDays, df, added + [t.rows[|s.rows|]], activities)
  {
    var e := t.rows[|s.rows|];
    DrawnRow(e, activities, d, s.slot);
    assert (added + [e])[..|added|] == added;
  }

  /** The work days of the month of the earliest row of `df`; at least 16, as a month has at
      least 28 days and the year twelve holidays. */
  function MonthWorkDays(df: seq<Entry>): (ws: seq<Date>)
    requires |df| > 0 && forall i :: 0 <= i < |df| ==> Valid(df[i].date)
    ensures StrictlyAscending(ws)
    ensures forall d :: d in ws <==>
              Valid(d) && d.year == Earliest(df).year && d.month == Earliest(df).month
              && d !in HolidayList(d.year)
    ensures |ws| >= 16
  {
    var first := Earliest(df);
    assert Valid(first);
    WorkDays(first.year, first.month)
  }

  /** The target in hours: `int(total_hours)` plus the draw `errorPick` of
      `random.randint(-int(max_undertime), int(max_overtime))`, which raises on an empty band. */
  function Target(totalHours: int, maxOvertime: int, maxUndertime: int, errorPick: int): (r: Result<int>)
    requires -maxUndertime <= maxOvertime ==> -maxUndertime <= errorPick <= maxOvertime
    ensures r.Err? <==> maxOvertime < -maxUndertime
    ensures r.Err? ==> r.error == ErrorBandEmpty
    ensures r.Ok? ==> totalHours - maxUndertime <= r.value <= totalHours + maxOvertime
  {
    if -maxUndertime > maxOvertime then Err(ErrorBandEmpty) else Ok(totalHours + errorPick)
  }

  /** The `while` loop of `autocomplete` on the month's work days, from `df` towards `target`
      net minutes, with the draws made inside. It returns the rows it ends with, `df` followed
      by the rows it appended (`added`). Each iteration commits a row or moves to a shorter
      slot, so the loop ends; it raises when the work days or the slots run out first. */
  method SearchLoop(workDays: seq<Date>, df: seq<Entry>, activities: seq<string>, target: int)
    returns (r: Result<seq<Entry>>, added: seq<Entry>, iterations: nat)
    requires StrictlyAscending(workDays)
    ensures iterations <= |workDays| + |Slots()|
    ensures r.Ok? ==> r.value == df + added
    ensures r.Ok? ==> NetMinutes(r.value) == (if NetMinutes(df) < target then target else NetMinutes(df))
    ensures r.Err? ==> NetMinutes(df) < target && (r.error == NoUnscheduledDay || r.error == SlotsExhausted)
    ensures NetMinutes(df) >= target ==> r == Ok(df) && added == []
    ensures NetMinutes(df) < target ==> NetMinutes(df + added) <= target
    ensures AddedRows(workDays, df, added, activities)
    ensures |added| <= |workDays|
  {
    added := [];
    iterations := 0;
    var s := Search(df, 0);
    while NetMinutes(s.rows) < target
      invariant LoopInvariant(workDays, df, activities, target, s, added)
      invariant iterations <= |added| + s.slot
      decreases |Unscheduled(workDays, s.rows)|, |Slots()| - s.slot
    {
      var pool := Unscheduled(workDays, s.rows);
      var notes := Notes(activities);
      var n :| 0 <= n < |notes|;
      var day := 0;
      if |pool| > 0 {
        day :| 0 <= day < |pool|;
      }
      var hour :| 6 <= hour < 15;
      var draw := Draw(notes[n], day, hour);
      var next := Step(workDays, target, s, draw);
      iterations := iterations + 1;
      if next.Err? {
        assert NetMinutes(df) < target by {
          if added == [] {
            assert s.rows == df;
          }
        }
        return Err(next.error), added, iterations;
      }
      if next.value.slot == s.slot {
        CommitKeeps(workDays, df, activities, target, s, added, next.value, draw);
        added := added + [next.value.rows[|s.rows|]];
      }
      s := next.value;
    }
    r := Ok(s.rows);
  }

  /** `Schedule.autocomplete(df)`. `errorPick` is the draw of `random.randint(-max_undertime,
      max_overtime)` and the target is `total_hours + errorPick` hours. `added` is the list of
      rows the loop appended, in order. When `df` already reaches the target, `df` comes back
      sorted and without unstarted rows. Otherwise the added rows lift the net time exactly to
      the target, each on its own unscheduled work day of the month, unless the work days or
      the slots run out first, which raises. */
  method Autocomplete(df: seq<Entry>, totalHours: int, maxOvertime: int, maxUndertime: int,
                      activities: seq<string>, errorPick: int)
    returns (r: Result<seq<Entry>>, added: seq<Entry>, iterations: nat)
    requires |df| > 0 && forall i :: 0 <= i < |df| ==> Valid(df[i].date)
    requires -maxUndertime <= maxOvertime ==> -maxUndertime <= errorPick <= maxOvertime
    ensures r == Err(ErrorBandEmpty) <==> -maxUndertime > maxOvertime
    ensures r.Err? && r.error != ErrorBandEmpty ==>
              NetMinutes(df) < 60 * (totalHours + errorPick)
              && (r.error == NoUnscheduledDay || r.error == SlotsExhausted)
    ensures r.Ok? ==> r.value == Finish(df + added)
    ensures r.Ok? ==> Sorted(r.value) && forall e :: e in r.value ==> e.start.Some?
    ensures r.Ok? && DistinctDates(df) ==> DatesAscending(r.value)
    ensures r.Ok? ==>
              NetMinutes(r.value) == (if NetMinutes(df) < 60 * (totalHours + errorPick) then 60 * (totalHours + errorPick) else NetMinutes(df))
    ensures -maxUndertime <= maxOvertime && NetMinutes(df) >= 60 * (totalHours + errorPick) ==>
              r == Ok(Finish(df)) && added == []
    ensures DistinctDates(added)
    ensures forall i :: 0 <= i < |added| ==>
              added[i].date in MonthWorkDays(df) && added[i].date !in DatesOf(df) && Synthesized(added[i], activities)
    ensures |added| <= |MonthWorkDays(df)|
    ensures iterations <= |MonthWorkDays(df)| + |Slots()|
    ensures NetMinutes(df) < 60 * (totalHours + errorPick) ==> NetMinutes(df + added) <= 60 * (totalHours + errorPick)
  {
    var hours := Target(totalHours, maxOvertime, maxUndertime, errorPick);
    if hours.Err? {
      assert df + [] == df;
      return Err(hours.error), [], 0;
    }
    var target := 60 * hours.value;
    assert target == 60 * (totalHours + errorPick);
    var workDays := MonthWorkDays(df);
    var rows;
    rows, added, iterations := SearchLoop(workDays, df, activities, target);
    AddedRowsMeaning(workDays, df, added, activities);
    if DistinctDates(df) {
      DistinctAppend(df, added);
    }
    if rows.Err? {
      return Err(rows.error), added, iterations;
    }
    var finished := Finish(rows.value);
    assert NetMinutes(finished) == NetMinutes(df + added);
    r := Ok(finished);
  }
}

=== FILE: base.dfy ===
/** Outcome types shared by the schedule engine and the cell arithmetic. */
module Base {

  /** A value that may be missing: pandas' NaN / NaT or Python's None. */
  datatype Option<+T> = None | Some(value: T)

  /** The exceptions the schedule engine lets escape to its caller. */
  datatype Failure =
    /** `random.randint(-max_undertime, max_overtime)` in `autocomplete` when the band is empty. */
    | ErrorBandEmpty
    /** `np.random.randint(0, 0)` in `create_row` when every work day is already scheduled. */
    | NoUnscheduledDay
    /** `next(slot_generator)` after the last slot, raised inside the `except AssertionError` handler. */
    | SlotsExhausted
    /** `set_index` in `fill` when the left merge did not yield exactly one row per work day. */
    | IndexLengthMismatch
    /** `match.group` on the `None` that `re.match` gives for a text that is not a cell reference. */
    | MalformedCell

  /** Either a value or the exception the source raises instead. */
  datatype Result<+T> = Ok(value: T) | Err(error: Failure)
}

=== FILE: calendar.dfy ===
/** Proleptic Gregorian dates as Python's `datetime` sees them: month lengths, day ordinals,
    weekdays (Monday = 0) and stepping by whole days. Every year from 1 on is allowed; pandas'
    `Timestamp` only covers 1677-09-21 to 2262-04-11 and raises `OutOfBoundsDatetime` outside,
    which this model does not reproduce. */
module Calendar {

  datatype Date = Date(year: int, month: int, day: int)

  predicate IsLeapYear(y: int) {
    y % 4 == 0 && (y % 100 != 0 || y % 400 == 0)
  }

  /** `calendar.monthrange(y, m)[1]`. */
  function DaysInMonth(y: int, m: int): (n: int)
    requires 1 <= m <= 12
    ensures 28 <= n <= 31
    ensures n == 29 <==> m == 2 && IsLeapYear(y)
    ensures n == 28 <==> m == 2 && !IsLeapYear(y)
    ensures n == 30 <==> m in {4, 6, 9, 11}
  {
    if m == 2 then (if IsLeapYear(y) then 29 else 28)
    else if m == 4 || m == 6 || m == 9 || m == 11 then 30
    else 31
  }

  function DaysInYear(y: int): int {
    if IsLeapYear(y) then 366 else 365
  }

  /** A date `datetime.date` accepts (the model does not bound the year from above). */
  predicate Valid(d: Date) {
    1 <= d.year && 1 <= d.month <= 12 && 1 <= d.day <= DaysInMonth(d.year, d.month)
  }

  /** Chronological order, compared field by field; `OrderMatchesOrdinal` shows it is the order of day numbers. */
  predicate Before(a: Date, b: Date) {
    a.year < b.year
    || (a.year == b.year && (a.month < b.month || (a.month == b.month && a.day < b.day)))
  }

  predicate NotAfter(a: Date, b: Date) {
    a == b || Before(a, b)
  }

  function DaysBeforeYear(y: int): int
    requires 1 <= y
  {
    var p := y - 1;
    365 * p + p / 4 - p / 100 + p / 400
  }

  /** Days of year `y` before the first of month `m`: the table `_DAYS_BEFORE_MONTH` of Python's
      `datetime`, plus one from March on in a leap year. */
  function DaysBeforeMonth(y: int, m: int): (n: int)
    requires 1 <= m <= 12
    ensures n == [0, 31, 59, 90, 120, 151, 181, 212, 243, 273, 304, 334][m - 1]
                 + (if m > 2 && IsLeapYear(y) then 1 else 0)
  {
    if m == 1 then 0 else DaysBeforeMonth(y, m - 1) + DaysInMonth(y, m - 1)
  }

  /** `date.toordinal()`: 0001-01-01 is day 1. */
  function Ordinal(d: Date): int
    requires Valid(d)
  {
    DaysBeforeYear(d.year) + DaysBeforeMonth(d.year, d.month) + d.day
  }

  /** `Timestamp.dayofweek`: Monday is 0, Sunday is 6. */
  function Weekday(d: Date): (w: int)
    requires Valid(d)
    ensures 0 <= w < 7
  {
    (Ordinal(d) + 6) % 7
  }

  /** Going from `y - 1` to `y`, the quotient by `k` grows by one exactly when `k` divides `y`. */
  lemma QuotientStep(y: int, k: int)
    requires k == 4 || k == 100 || k == 400
    ensures y / k == (y - 1) / k + (if y % k == 0 then 1 else 0)
  {
    var q, r := (y - 1) / k, (y - 1) % k;
    assert y - 1 == k * q + r && 0 <= r < k;
    if r == k - 1 {
      assert y == k * (q + 1);
    } else {
      assert y == k * q + (r + 1);
    }
  }

  lemma YearStep(y: int)
    requires 1 <= y
    ensures DaysBeforeYear(y + 1) == DaysBeforeYear(y) + DaysInYear(y)
  {
    QuotientStep(y, 4);
    QuotientStep(y, 100);
    QuotientStep(y, 400);
    DivisorsNest(y);
  }

  /** A multiple of 400 is a multiple of 100, and a multiple of 100 a multiple of 4. */
  lemma DivisorsNest(y: int)
    ensures y % 400 == 0 ==> y % 100 == 0
    ensures y % 100 == 0 ==> y % 4 == 0
  {
    var a, b := y / 100, y % 100;
    assert y == 100 * a + b && 0 <= b < 100;
    if y % 400 == 0 {
      var c := y / 400;
      assert y == 400 * c;
      assert b == 100 * (4 * c - a);
    }
    var e, f := y / 4, y % 4;
    assert y == 4 * e + f && 0 <= f < 4;
    if y % 100 == 0 {
      assert f == 4 * (25 * a - e);
    }
  }

  lemma MonthsFillYear(y: int)
    ensures DaysBeforeMonth(y, 12) + 31 == DaysInYear(y)
  {
    assert DaysBeforeMonth(y, 2) == 31;
    assert DaysBeforeMonth(y, 3) == 31 + DaysInMonth(y, 2);
    assert DaysBeforeMonth(y, 4) == DaysBeforeMonth(y, 3) + 31;
    assert DaysBeforeMonth(y, 5) == DaysBeforeMonth(y, 4) + 30;
    assert DaysBeforeMonth(y, 6) == DaysBeforeMonth(y, 5) + 31;
    assert DaysBeforeMonth(y, 7) == DaysBeforeMonth(y, 6) + 30;
    assert DaysBeforeMonth(y, 8) == DaysBeforeMonth(y, 7) + 31;
    assert DaysBeforeMonth(y, 9) == DaysBeforeMonth(y, 8) + 31;
    assert DaysBeforeMonth(y, 10) == DaysBeforeMonth(y, 9) + 30;
    assert DaysBeforeMonth(y, 11) == DaysBeforeMonth(y, 10) + 31;
    assert DaysBeforeMonth(y, 12) == DaysBeforeMonth(y, 11) + 30;
  }

  lemma {:induction false} MonthBounds(y: int, m: int)
    requires 1 <= m <= 12
    ensures DaysBeforeMonth(y, m) + DaysInMonth(y, m) <= DaysInYear(y)
    decreases 12 - m
  {
    if m < 12 {
      MonthBounds(y, m + 1);
    } else {
      MonthsFillYear(y);
    }
  }

  lemma {:induction false} MonthMonotone(y: int, m: int, n: int)
    requires 1 <= m < n <= 12
    ensures DaysBeforeMonth(y, m) + DaysInMonth(y, m) <= DaysBeforeMonth(y, n)
    decreases n - m
  {
    if m + 1 < n {
      MonthMonotone(y, m + 1, n);
    }
  }

  lemma {:induction false} YearMonotone(y: int, z: int)
    requires 1 <= y < z
    ensures DaysBeforeYear(y) + DaysInYear(y) <= DaysBeforeYear(z)
    decreases z - y
  {
    YearStep(y);
    if y + 1 < z {
      YearMonotone(y + 1, z);
    }
  }

  /** The day after `d`; its ordinal is one more. */
  function NextDay(d: Date): (n: Date)
    requires Valid(d)
    ensures Valid(n) && Ordinal(n) == Ordinal(d) + 1
  {
    if d.day < DaysInMonth(d.year, d.month) then Date(d.year, d.month, d.day + 1)
    else if d.month < 12 then Date(d.year, d.month + 1, 1)
    else
      YearStep(d.year);
      MonthsFillYear(d.year);
      Date(d.year + 1, 1, 1)
  }

  /** The day before `d`; its ordinal is one less. */
  function PrevDay(d: Date): (p: Date)
    requires Valid(d) && Ordinal(d) > 1
    ensures Valid(p) && Ordinal(p) + 1 == Ordinal(d)
  {
    if d.day > 1 then Date(d.year, d.month, d.day - 1)
    else if d.month > 1 then Date(d.year, d.month - 1, DaysInMonth(d.year, d.month - 1))
    else
      assert d.year > 1;
      YearStep(d.year - 1);
      MonthsFillYear(d.year - 1);
      Date(d.year - 1, 12, 31)
  }

  /** `d + timedelta(days=n)`. */
  function AddDays(d: Date, n: int): (r: Date)
    requires Valid(d) && Ordinal(d) + n >= 1
    ensures Valid(r) && Ordinal(r) == Ordinal(d) + n
    decreases if n >= 0 then n else -n, d
  {
    if n == 0 then d
    else if n > 0 then AddDays(NextDay(d), n - 1)
    else AddDays(PrevDay(d), n + 1)
  }

  /** Field-by-field comparison of valid dates is the order of their day numbers. */
  lemma OrderMatchesOrdinal(a: Date, b: Date)
    requires Valid(a) && Valid(b)
    ensures Before(a, b) <==> Ordinal(a) < Ordinal(b)
    ensures a == b <==> Ordinal(a) == Ordinal(b)
  {
    if Before(a, b) {
      BeforeMeansSmaller(a, b);
    } else if Before(b, a) {
      BeforeMeansSmaller(b, a);
    }
  }

  lemma BeforeMeansSmaller(a: Date, b: Date)
    requires Valid(a) && Valid(b) && Before(a, b)
    ensures Ordinal(a) < Ordinal(b)
  {
    MonthBounds(a.year, a.month);
    MonthBounds(b.year, b.month);
    if a.year < b.year {
      YearMonotone(a.year, b.year);
    } else if a.month < b.month {
      MonthMonotone(a.year, a.month, b.month);
    }
  }

  /** Known weekdays: 1 January of year 1 was a Monday, 25 December 2019 a Wednesday and
      29 February 2024 a Thursday. */
  lemma WeekdayExamples()
    ensures Weekday(Date(1, 1, 1)) == 0
    ensures Weekday(Date(2019, 12, 25)) == 2
    ensures Weekday(Date(2024, 2, 29)) == 3
  {
  }

  /** Consecutive days have consecutive weekdays, Sunday wrapping round to Monday. */
  lemma WeekdayAdvances(d: Date)
    requires Valid(d)
    ensures Weekday(NextDay(d)) == (Weekday(d) + 1) % 7
  {
    WeekStep(Ordinal(d));
  }

  lemma WeekStep(o: int)
    ensures (o + 7) % 7 == ((o + 6) % 7 + 1) % 7
  {
    var q, r := (o + 6) / 7, (o + 6) % 7;
    assert o + 6 == 7 * q + r && 0 <= r < 7;
    if r == 6 {
      assert o + 7 == 7 * (q + 1);
    } else {
      assert o + 7 == 7 * q + (r + 1);
    }
  }
}

=== FILE: cells.dfy ===
/** Cell arithmetic of `writer/_writer.py`: A1-style references read as a row number and a
    bijective base-26 column number, and the cells a day's start time, end time and note go to. */
module Cells {
  import opened Base

  /** A cell as `convert_cell_position` returns it: `np.array([row, col])`. */
  datatype Cell = Cell(row: int, col: int)

  predicate IsLetter(c: char) {
    'A' <= c <= 'Z'
  }

  predicate IsDigit(c: char) {
    '0' <= c <= '9'
  }

  predicate AllLetters(s: string) {
    forall i :: 0 <= i < |s| ==> IsLetter(s[i])
  }

  predicate AllDigits(s: string) {
    forall i :: 0 <= i < |s| ==> IsDigit(s[i])
  }

  /** `ord(c) - 64`: A is 1, Z is 26. */
  function LetterValue(c: char): int {
    c as int - 64
  }

  function Pow26(i: nat): (p: nat)
    ensures p >= 1
  {
    if i == 0 then 1 else 26 * Pow26(i - 1)
  }

  function Reverse(s: string): (r: string)
    ensures |r| == |s|
    ensures forall i :: 0 <= i < |s| ==> r[i] == s[|s| - 1 - i]
  {
    if |s| == 0 then [] else Reverse(s[1..]) + [s[0]]
  }

  /** `sum((ord(c) - 64) * 26**(i + k) for k, c in enumerate(r))`. */
  function PowerSum(r: string, i: nat): int {
    if |r| == 0 then 0 else LetterValue(r[0]) * Pow26(i) + PowerSum(r[1..], i + 1)
  }

  /** The column of the letter part, as `convert_cell_position` computes it: the letters
      reversed, each weighted by 26 to the power of its position. */
  function ColumnOf(letters: string): (c: int)
    ensures c == ColumnLeftToRight(letters)
    decreases |letters|
  {
    var c := PowerSum(Reverse(letters), 0);
    if |letters| == 0 then c
    else
      var init := letters[..|letters| - 1];
      assert Reverse(letters) == [letters[|letters| - 1]] + Reverse(init);
      PowerSumShift(Reverse(init), 0);
      assert ColumnOf(init) == ColumnLeftToRight(init);
      c
  }

  /** The column read left to right, as a spreadsheet user counts it: each further letter
      multiplies the column so far by 26 and adds the letter's value. */
  function ColumnLeftToRight(letters: string): int
    decreases |letters|
  {
    if |letters| == 0 then 0
    else 26 * ColumnLeftToRight(letters[..|letters| - 1]) + LetterValue(letters[|letters| - 1])
  }

  /** Raising every weight by one power multiplies the sum by 26. */
  lemma {:induction false} PowerSumShift(r: string, i: nat)
    ensures PowerSum(r, i + 1) == 26 * PowerSum(r, i)
  {
    if |r| > 0 {
      PowerSumShift(r[1..], i + 1);
      assert LetterValue(r[0]) * Pow26(i + 1) == 26 * (LetterValue(r[0]) * Pow26(i));
    }
  }

  /** Appending a letter shifts the column one base-26 place up and adds the letter's value. */
  lemma AppendLetter(s: string, c: char)
    ensures ColumnOf(s + [c]) == 26 * ColumnOf(s) + LetterValue(c)
  {
    var r := Reverse(s + [c]);
    assert r == [c] + Reverse(s);
    assert r[1..] == Reverse(s);
    PowerSumShift(Reverse(s), 0);
  }

  lemma ColumnExamples()
    ensures ColumnOf("A") == 1 && ColumnOf("Z") == 26
    ensures ColumnOf("AA") == 27 && ColumnOf("AZ") == 52 && ColumnOf("BA") == 53
    ensures ColumnOf("ZZ") == 702 && ColumnOf("AAA") == 703
  {
    AppendLetter("", 'A');
    AppendLetter("", 'Z');
    AppendLetter("A", 'A');
    AppendLetter("A", 'Z');
    AppendLetter("", 'B');
    AppendLetter("B", 'A');
    AppendLetter("Z", 'Z');
    AppendLetter("AA", 'A');
  }

  /** The smallest column `n` letters can name ("A", "AA", "AAA", ...); `26 * FirstColumn(n)` is
      the largest ("Z", "ZZ", ...). */
  function FirstColumn(n: nat): (m: nat)
    ensures n >= 1 ==> m >= 1
  {
    if n == 0 then 0 else 26 * FirstColumn(n - 1) + 1
  }

  /** Columns of `n` letters lie in `[FirstColumn(n), 26 * FirstColumn(n)]`; the next length
      starts just above, so a longer reference always names a larger column. */
  lemma {:induction false} ColumnRange(s: string)
    requires AllLetters(s)
    ensures FirstColumn(|s|) <= ColumnOf(s) <= 26 * FirstColumn(|s|)
    ensures 26 * FirstColumn(|s|) + 1 == FirstColumn(|s| + 1)
  {
    if |s| > 0 {
      var init := s[..|s| - 1];
      assert s == init + [s[|s| - 1]];
      ColumnRange(init);
      AppendLetter(init, s[|s| - 1]);
    } else {
      assert Reverse(s) == [];
    }
  }

  /** Different letter strings name different columns: the reading is one-to-one. */
  lemma {:induction false} ColumnInjective(s: string, t: string)
    requires AllLetters(s) && AllLetters(t)
    requires ColumnOf(s) == ColumnOf(t)
    ensures s == t
    decreases |s|
  {
    ColumnRange(s);
    ColumnRange(t);
    if |s| < |t| {
      LengthsOrdered(|s|, |t|);
    } else if |t| < |s| {
      LengthsOrdered(|t|, |s|);
    } else if |s| > 0 {
      var s0, t0 := s[..|s| - 1], t[..|t| - 1];
      assert s == s0 + [s[|s| - 1]] && t == t0 + [t[|t| - 1]];
      AppendLetter(s0, s[|s| - 1]);
      AppendLetter(t0, t[|t| - 1]);
      assert ColumnOf(s0) == ColumnOf(t0) && s[|s| - 1] == t[|t| - 1];
      ColumnInjective(s0, t0);
    }
  }

  /** The top of one length's column range lies below the bottom of every longer length's. */
  lemma {:induction false} LengthsOrdered(m: nat, n: nat)
    requires m < n
    ensures 26 * FirstColumn(m) < FirstColumn(n)
    decreases n - m
  {
    if m + 1 < n {
      LengthsOrdered(m + 1, n);
    }
  }

  /** The letters of column `n` in the spreadsheet's naming: A to Z, then AA, AB, ... */
  function ColumnLetters(n: int): (s: string)
    requires n >= 1
    ensures |s| >= 1 && AllLetters(s)
    decreases n
  {
    var c := (65 + (n - 1) % 26) as char;
    if (n - 1) / 26 == 0 then [c] else ColumnLetters((n - 1) / 26) + [c]
  }

  /** Reading the name of a column gives the column back. */
  lemma {:induction false} ColumnLettersRoundTrip(n: int)
    requires n >= 1
    ensures ColumnOf(ColumnLetters(n)) == n
    decreases n
  {
    var c := (65 + (n - 1) % 26) as char;
    if (n - 1) / 26 == 0 {
      AppendLetter("", c);
      assert ColumnLetters(n) == "" + [c];
    } else {
      ColumnLettersRoundTrip((n - 1) / 26);
      AppendLetter(ColumnLetters((n - 1) / 26), c);
    }
  }

  /** Every letter string is the name of its column, so the column reading is a bijection
      between non-empty letter strings and positive numbers. */
  lemma LettersRoundTrip(s: string)
    requires |s| >= 1 && AllLetters(s)
    ensures ColumnOf(s) >= 1 && ColumnLetters(ColumnOf(s)) == s
  {
    ColumnRange(s);
    ColumnLettersRoundTrip(ColumnOf(s));
    ColumnInjective(ColumnLetters(ColumnOf(s)), s);
  }

  function Pow10(n: nat): (p: nat)
    ensures p >= 1
  {
    if n == 0 then 1 else 10 * Pow10(n - 1)
  }

  /** `int(row_string)` for a string of ASCII digits: a number with at most as many digits. */
  function DecimalValue(ds: string): (v: int)
    requires AllDigits(ds)
    ensures 0 <= v < Pow10(|ds|)
  {
    DecimalPrefix(ds, |ds|)
  }

  /** The value of the first `n` digits of `ds`, read most significant first. */
  function DecimalPrefix(ds: string, n: nat): (v: int)
    requires AllDigits(ds) && n <= |ds|
    ensures 0 <= v < Pow10(n)
  {
    if n == 0 then 0 else 10 * DecimalPrefix(ds, n - 1) + (ds[n - 1] as int - 48)
  }

  /** Digits appended after the first `n` do not change their value. */
  lemma {:induction false} DecimalPrefixAppend(ds: string, more: string, n: nat)
    requires AllDigits(ds) && AllDigits(ds + more) && n <= |ds|
    ensures DecimalPrefix(ds + more, n) == DecimalPrefix(ds, n)
  {
    if n > 0 {
      DecimalPrefixAppend(ds, more, n - 1);
      assert (ds + more)[n - 1] == ds[n - 1];
    }
  }

  /** The shortest decimal digits of `n`. */
  function DecimalDigits(n: nat): (ds: string)
    ensures |ds| >= 1 && AllDigits(ds)
  {
    var d := (48 + n % 10) as char;
    if n < 10 then [d] else DecimalDigits(n / 10) + [d]
  }

  /** Reading the digits of a number gives the number back. */
  lemma {:induction false} DecimalRoundTrip(n: nat)
    ensures DecimalValue(DecimalDigits(n)) == n
  {
    if n >= 10 {
      var init := DecimalDigits(n / 10);
      var ds := DecimalDigits(n);
      DecimalRoundTrip(n / 10);
      DecimalPrefixAppend(init, [(48 + n % 10) as char], |init|);
      assert DecimalPrefix(ds, |ds| - 1) == n / 10;
      assert ds[|ds| - 1] as int - 48 == n % 10;
    } else {
      var ds := DecimalDigits(n);
      assert ds == [(48 + n) as char];
      assert DecimalPrefix(ds, 1) == 10 * DecimalPrefix(ds, 0) + (ds[0] as int - 48);
    }
  }

  /** Leading zeros do not change the row (`int("007") == 7`). */
  lemma LeadingZero(ds: string)
    requires AllDigits(ds)
    ensures AllDigits("0" + ds)
    ensures DecimalValue("0" + ds) == DecimalValue(ds)
  {
    ShiftedPrefix(ds, |ds|);
  }

  lemma {:induction false} ShiftedPrefix(ds: string, n: nat)
    requires AllDigits(ds) && n <= |ds|
    ensures AllDigits("0" + ds)
    ensures DecimalPrefix("0" + ds, n + 1) == DecimalPrefix(ds, n)
  {
    assert AllDigits("0" + ds) by {
      forall i | 0 <= i < |"0" + ds| ensures IsDigit(("0" + ds)[i]) {
        if i > 0 {
          assert ("0" + ds)[i] == ds[i - 1];
        }
      }
    }
    if n > 0 {
      ShiftedPrefix(ds, n - 1);
      assert ("0" + ds)[n] == ds[n - 1];
    }
  }

  /** The length of the longest prefix of `s` whose characters all satisfy the class, as the
      greedy `[A-Z]+` and `\d+` consume. */
  function LetterRun(s: string): (n: nat)
    ensures n <= |s| && AllLetters(s[..n])
    ensures n < |s| ==> !IsLetter(s[n])
  {
    if |s| == 0 || !IsLetter(s[0]) then 0
    else
      var n := 1 + LetterRun(s[1..]);
      assert s[..n] == [s[0]] + s[1..][..n - 1];
      n
  }

  function DigitRun(s: string): (n: nat)
    ensures n <= |s| && AllDigits(s[..n])
    ensures n < |s| ==> !IsDigit(s[n])
  {
    if |s| == 0 || !IsDigit(s[0]) then 0
    else
      var n := 1 + DigitRun(s[1..]);
      assert s[..n] == [s[0]] + s[1..][..n - 1];
      n
  }

  /** `re.match(r"([A-Z]+)(\d+)", cell)`: the text begins with at least one capital letter
      followed by at least one digit (anything may follow). */
  predicate IsCellReference(cell: string) {
    var k := LetterRun(cell);
    k >= 1 && DigitRun(cell[k..]) >= 1
  }

  /** `convert_cell_position(cell)`: the row from the digit group, the column from the letter
      group, and `MalformedCell` where `re.match` finds nothing. */
  function ConvertCellPosition(cell: string): (r: Result<Cell>)
    ensures r.Ok? <==> IsCellReference(cell)
    ensures r.Err? ==> r.error == MalformedCell
    ensures r.Ok? ==>
              exists k, m :: 1 <= k < m <= |cell| && AllLetters(cell[..k]) && AllDigits(cell[k..m])
                             && (m == |cell| || !IsDigit(cell[m]))
                             && r.value == Cell(DecimalValue(cell[k..m]), ColumnOf(cell[..k]))
  {
    var k := LetterRun(cell);
    var m := k + DigitRun(cell[k..]);
    if k == 0 || m == k then Err(MalformedCell)
    else
      assert cell[k..m] == cell[k..][..m - k];
      assert m < |cell| ==> cell[m] == cell[k..][m - k];
      Ok(Cell(DecimalValue(cell[k..m]), ColumnOf(cell[..k])))
  }

  /** Writing a cell's reference and converting it back gives the cell: column from 1, row
      from 0. */
  lemma CellRoundTrip(row: nat, col: int)
    requires col >= 1
    ensures ConvertCellPosition(ColumnLetters(col) + DecimalDigits(row)) == Ok(Cell(row, col))
  {
    ConvertParts(ColumnLetters(col), DecimalDigits(row));
    ColumnLettersRoundTrip(col);
    DecimalRoundTrip(row);
  }

  /** A letter group followed by a digit group converts to the values of the two groups. */
  lemma ConvertParts(letters: string, digits: string)
    requires |letters| >= 1 && AllLetters(letters)
    requires |digits| >= 1 && AllDigits(digits)
    ensures ConvertCellPosition(letters + digits) == Ok(Cell(DecimalValue(digits), ColumnOf(letters)))
  {
    assert letters + digits + "" == letters + digits;
    ConvertPrefix(letters, digits, "");
  }

  /** `re.match` only anchors at the start: whatever follows the digit group, when it does not
      begin with a digit, leaves the row and column unchanged, and the row is read from the
      whole digit group. */
  lemma ConvertPrefix(letters: string, digits: string, rest: string)
    requires |letters| >= 1 && AllLetters(letters)
    requires |digits| >= 1 && AllDigits(digits)
    requires |rest| > 0 ==> !IsDigit(rest[0])
    ensures ConvertCellPosition(letters + digits + rest) == Ok(Cell(DecimalValue(digits), ColumnOf(letters)))
  {
    GroupsOf(letters, digits, rest);
    ConvertGroups(letters, digits, rest);
  }

  /** The whole digit run is the row: "A123", and "A123" followed by anything that does not
      start with a digit, is row 123 of column 1, not row 1 or 12. */
  lemma ConvertExample(rest: string)
    requires |rest| > 0 ==> !IsDigit(rest[0])
    ensures ConvertCellPosition("A" + "123" + rest) == Ok(Cell(123, 1))
  {
    ConvertPrefix("A", "123", rest);
    assert DecimalValue("123") == 123 by {
      assert DecimalPrefix("123", 1) == 1;
      assert DecimalPrefix("123", 2) == 12;
    }
    assert ColumnOf("A") == 1 by {
      assert "A"[..0] == "";
      assert ColumnLeftToRight("A") == 1;
    }
  }

  /** Text after the digit group is ignored: "AB7:C9", or "AB7" followed by anything that does
      not start with a digit, is row 7 of column AB = 28. */
  lemma TrailingExample(rest: string)
    requires |rest| > 0 ==> !IsDigit(rest[0])
    ensures ConvertCellPosition("AB" + "7" + rest) == Ok(Cell(7, 28))
  {
    assert AllLetters("AB") by {
      assert "AB"[0] == 'A' && "AB"[1] == 'B';
    }
    ConvertPrefix("AB", "7", rest);
    assert DecimalValue("7") == 7 by {
      assert DecimalPrefix("7", 1) == 7;
    }
    assert ColumnOf("AB") == 28 by {
      assert "AB"[..1] == "A" && "A"[..0] == "";
      assert ColumnLeftToRight("AB") == 28;
    }
  }

  /** No letter group, or no digit group right after it, is `MalformedCell`. */
  lemma MalformedExamples()
    ensures ConvertCellPosition("A") == Err(MalformedCell)
    ensures ConvertCellPosition("1A") == Err(MalformedCell)
  {
    assert LetterRun("A") == 1 by {
      assert "A"[1..] == [];
    }
    assert DigitRun("A"[1..]) == 0;
    assert LetterRun("1A") == 0;
  }

  /** In a letter group followed by a digit group and a rest not starting with a digit, the runs
      are exactly the two groups. */
  lemma GroupsOf(letters: string, digits: string, rest: string)
    requires AllLetters(letters) && |digits| >= 1 && AllDigits(digits)
    requires |rest| > 0 ==> !IsDigit(rest[0])
    ensures var cell := letters + digits + rest;
      && LetterRun(cell) == |letters| && DigitRun(cell[|letters|..]) == |digits|
      && cell[..|letters|] == letters && cell[|letters|..|letters| + |digits|] == digits
  {
    var cell := letters + digits + rest;
    assert cell == letters + (digits + rest);
    assert cell[..|letters|] == letters && cell[|letters|..] == digits + rest;
    LetterRunOf(letters, digits + rest);
    DigitRunOf(digits, rest);
    assert cell[|letters|..|letters| + |digits|] == digits;
  }

  /** Where the runs are exactly a letter group and a digit group, the conversion reads them. */
  lemma ConvertGroups(letters: string, digits: string, rest: string)
    requires |letters| >= 1 && |digits| >= 1 && AllDigits(digits)
    requires var cell := letters + digits + rest;
      && LetterRun(cell) == |letters| && DigitRun(cell[|letters|..]) == |digits|
      && cell[..|letters|] == letters && cell[|letters|..|letters| + |digits|] == digits
    ensures ConvertCellPosition(letters + digits + rest) == Ok(Cell(DecimalValue(digits), ColumnOf(letters)))
  {
    var cell := letters + digits + rest;
    var k := |letters|;
    assert cell[k..k + |digits|] == digits;
    assert ConvertCellPosition(cell) == Ok(Cell(DecimalValue(cell[k..k + |digits|]), ColumnOf(cell[..k])));
  }

  lemma {:induction false} LetterRunOf(letters: string, rest: string)
    requires AllLetters(letters) && (|rest| > 0 ==> !IsLetter(rest[0]))
    ensures LetterRun(letters + rest) == |letters|
  {
    if |letters| > 0 {
      assert (letters + rest)[1..] == letters[1..] + rest;
      LetterRunOf(letters[1..], rest);
    }
  }

  lemma {:induction false} DigitRunOf(digits: string, rest: string)
    requires AllDigits(digits) && (|rest| > 0 ==> !IsDigit(rest[0]))
    ensures DigitRun(digits + rest) == |digits|
  {
    if |digits| > 0 {
      assert (digits + rest)[1..] == digits[1..] + rest;
      DigitRunOf(digits[1..], rest);
    }
  }

  /** The `orientation` setting. */
  datatype Orientation = Vertical | Horizontal

  /** `ORIENTATION[name]`; another name raises `KeyError`, here `None`. */
  function OrientationNamed(name: string): (o: Option<Orientation>)
    ensures o == Some(Vertical) <==> name == "vertical"
    ensures o == Some(Horizontal) <==> name == "horizontal"
  {
    if name == "vertical" then Some(Vertical)
    else if name == "horizontal" then Some(Horizontal)
    else None
  }

  function Other(o: Orientation): Orientation {
    if o == Vertical then Horizontal else Vertical
  }

  /** `ORIENTATION`: the step from one day to the next, one cell along the orientation's axis. */
  function Direction(o: Orientation): (v: Cell)
    ensures Along(o, v) == 1 && Beside(o, v) == 0
  {
    match o
    case Vertical => Cell(1, 0)
    case Horizontal => Cell(0, 1)
  }

  /** `OPPOSITE_ORIENTATION`: the step from a day's start cell to its other cells, one cell
      across the axis, which is the other orientation's step. */
  function Across(o: Orientation): (v: Cell)
    ensures Along(o, v) == 0 && Beside(o, v) == 1
    ensures v == Direction(Other(o))
  {
    match o
    case Vertical => Cell(0, 1)
    case Horizontal => Cell(1, 0)
  }

  /** `a + k * v` on the two coordinates. */
  function Offset(a: Cell, v: Cell, k: int): Cell {
    Cell(a.row + k * v.row, a.col + k * v.col)
  }

  /** The coordinate a cell has along the orientation's axis. */
  function Along(o: Orientation, c: Cell): int {
    match o
    case Vertical => c.row
    case Horizontal => c.col
  }

  /** The coordinate a cell has across the orientation's axis. */
  function Beside(o: Orientation, c: Cell): int {
    match o
    case Vertical => c.col
    case Horizontal => c.row
  }

  /** The cells of one day. */
  datatype Positions = Positions(start: Cell, end: Cell, note: Cell)

  /** `Writer.__get_positions(day)` with the anchor cell and the two offsets from the settings:
      the start cell is `day` steps from the anchor along the orientation, the end and note
      cells are beside it at the given offsets. */
  function GetPositions(anchor: Cell, o: Orientation, day: int, endOffset: int, notesOffset: int): (p: Positions)
    ensures o == Vertical ==> p.start == Cell(anchor.row + day, anchor.col)
    ensures o == Horizontal ==> p.start == Cell(anchor.row, anchor.col + day)
    ensures Along(o, p.end) == Along(o, p.start) && Along(o, p.note) == Along(o, p.start)
    ensures Beside(o, p.start) == Beside(o, anchor)
    ensures Beside(o, p.end) == Beside(o, anchor) + endOffset
    ensures Beside(o, p.note) == Beside(o, anchor) + notesOffset
  {
    var start := Offset(anchor, Direction(o), day);
    Positions(start, Offset(start, Across(o), endOffset), Offset(start, Across(o), notesOffset))
  }

  /** The day a start cell belongs to: its distance from the anchor along the orientation. */
  function DayAt(anchor: Cell, o: Orientation, c: Cell): int {
    Along(o, c) - Along(o, anchor)
  }

  /** The day can be read back from its start cell, so distinct days get distinct cells. */
  lemma DayRoundTrip(anchor: Cell, o: Orientation, day: int, endOffset: int, notesOffset: int)
    ensures DayAt(anchor, o, GetPositions(anchor, o, day, endOffset, notesOffset).start) == day
  {
  }

  lemma DistinctDays(anchor: Cell, o: Orientation, d1: int, d2: int, endOffset: int, notesOffset: int)
    requires d1 != d2
    ensures GetPositions(anchor, o, d1, endOffset, notesOffset).start != GetPositions(anchor, o, d2, endOffset, notesOffset).start
  {
    DayRoundTrip(anchor, o, d1, endOffset, notesOffset);
    DayRoundTrip(anchor, o, d2, endOffset, notesOffset);
  }
}

=== FILE: frame.dfy ===
/** The DataFrame operations the autocomplete step relies on, over schedule rows: the index's
    dates, its minimum, `sort_index()` and `dropna(subset=["activity_start"])`. */
module Frame {
  import opened Calendar
  import opened Hours

  /** The dates in the index of `rows`. */
  function DatesOf(rows: seq<Entry>): (ds: set<Date>)
    ensures forall d :: d in ds <==> exists i :: 0 <= i < |rows| && rows[i].date == d
  {
    if |rows| == 0 then {}
    else
      var init := rows[..|rows| - 1];
      assert forall i :: 0 <= i < |init| ==> init[i] == rows[i];
      DatesOf(init) + {rows[|rows| - 1].date}
  }

  /** `df.index.min()`: the earliest date in the index. */
  function Earliest(rows: seq<Entry>): (d: Date)
    requires |rows| > 0
    ensures d in DatesOf(rows)
    ensures forall i :: 0 <= i < |rows| ==> NotAfter(d, rows[i].date)
  {
    if |rows| == 1 then rows[0].date
    else
      var rest := Earliest(rows[1..]);
      assert forall i :: 1 <= i < |rows| ==> rows[i] == rows[1..][i - 1];
      if NotAfter(rows[0].date, rest) then rows[0].date else rest
  }

  /** Rows in date order, equal dates allowed. */
  predicate Sorted(rows: seq<Entry>) {
    forall i, j :: 0 <= i < j < |rows| ==> NotAfter(rows[i].date, rows[j].date)
  }

  /** No date occurs twice in the index. */
  predicate DistinctDates(rows: seq<Entry>) {
    forall i, j :: 0 <= i < j < |rows| ==> rows[i].date != rows[j].date
  }

  /** A row no later than every row of a sorted list can go in front of it. */
  lemma ConsSorted(a: Entry, rest: seq<Entry>)
    requires Sorted(rest) && forall e :: e in rest ==> NotAfter(a.date, e.date)
    ensures Sorted([a] + rest)
  {
    var r := [a] + rest;
    forall i, j | 0 <= i < j < |r| ensures NotAfter(r[i].date, r[j].date) {
      assert r[j] == rest[j - 1];
      if i > 0 {
        assert r[i] == rest[i - 1];
      }
    }
  }

  /** A row strictly earlier than every row of an ascending list can go in front of it. */
  lemma ConsAscending(a: Entry, rest: seq<Entry>)
    requires DatesAscending(rest) && forall e :: e in rest ==> Before(a.date, e.date)
    ensures DatesAscending([a] + rest)
  {
    var r := [a] + rest;
    forall i, j | 0 <= i < j < |r| ensures Before(r[i].date, r[j].date) {
      assert r[j] == rest[j - 1];
      if i > 0 {
        assert r[i] == rest[i - 1];
      }
    }
  }

  /** `x` placed into `ys` before the first row it does not come after. */
  function Insert(x: Entry, ys: seq<Entry>): (r: seq<Entry>)
    ensures multiset(r) == multiset(ys) + multiset{x}
    ensures forall e :: e in r <==> e == x || e in ys
  {
    if |ys| == 0 || NotAfter(x.date, ys[0].date) then [x] + ys
    else
      assert ys == [ys[0]] + ys[1..];
      [ys[0]] + Insert(x, ys[1..])
  }

  /** Inserting into a sorted list keeps it sorted; inserting a new date into an ascending list
      keeps it ascending. */
  lemma {:induction false} InsertOrdered(x: Entry, ys: seq<Entry>)
    ensures Sorted(ys) ==> Sorted(Insert(x, ys))
    ensures DatesAscending(ys) && (forall e :: e in ys ==> e.date != x.date) ==> DatesAscending(Insert(x, ys))
  {
    if |ys| == 0 || NotAfter(x.date, ys[0].date) {
      if Sorted(ys) {
        ConsSorted(x, ys);
      }
      if DatesAscending(ys) && (forall e :: e in ys ==> e.date != x.date) {
        ConsAscending(x, ys);
      }
    } else {
      var rest := Insert(x, ys[1..]);
      InsertOrdered(x, ys[1..]);
      if Sorted(ys) {
        ConsSorted(ys[0], rest);
      }
      if DatesAscending(ys) && (forall e :: e in ys ==> e.date != x.date) {
        ConsAscending(ys[0], rest);
      }
    }
  }

  /** `sort_index()`: the rows in date order, a permutation of the input. */
  function SortByDate(rows: seq<Entry>): (r: seq<Entry>)
    ensures multiset(r) == multiset(rows)
    ensures Sorted(r)
  {
    if |rows| == 0 then []
    else
      assert rows == [rows[0]] + rows[1..];
      InsertOrdered(rows[0], SortByDate(rows[1..]));
      Insert(rows[0], SortByDate(rows[1..]))
  }

  /** Sorting rows with distinct dates puts them in strictly ascending order. */
  lemma {:induction false} SortAscending(rows: seq<Entry>)
    ensures DistinctDates(rows) ==> DatesAscending(SortByDate(rows))
  {
    if |rows| > 0 && DistinctDates(rows) {
      var rest := SortByDate(rows[1..]);
      assert DistinctDates(rows[1..]) by {
        forall i, j | 0 <= i < j < |rows[1..]| ensures rows[1..][i].date != rows[1..][j].date {
          assert rows[1..][i] == rows[i + 1] && rows[1..][j] == rows[j + 1];
        }
      }
      SortAscending(rows[1..]);
      forall e | e in rest ensures e.date != rows[0].date {
        assert e in multiset(rest);
        var k :| 0 <= k < |rows[1..]| && rows[1..][k] == e;
        assert rows[k + 1] == e;
      }
      InsertOrdered(rows[0], rest);
    }
  }

  /** `dropna(subset=["activity_start"])`: the rows that have a start time, in order. Dropped
      rows have no duration, so the net time is unchanged. */
  function DropUnstarted(rows: seq<Entry>): (r: seq<Entry>)
    ensures forall e :: e in r <==> e in rows && e.start.Some?
    ensures forall e :: multiset(r)[e] == if e.start.Some? then multiset(rows)[e] else 0
    ensures NetMinutes(r) == NetMinutes(rows)
  {
    if |rows| == 0 then []
    else
      assert rows == [rows[0]] + rows[1..];
      if rows[0].start.Some? then [rows[0]] + DropUnstarted(rows[1..]) else DropUnstarted(rows[1..])
  }

  /** Dropping rows keeps a sorted list sorted and an ascending list ascending. */
  lemma DropOrdered(rows: seq<Entry>)
    ensures Sorted(rows) ==> Sorted(DropUnstarted(rows))
    ensures DatesAscending(rows) ==> DatesAscending(DropUnstarted(rows))
  {
    if Sorted(rows) {
      DropSorted(rows);
    }
    if DatesAscending(rows) {
      DropAscending(rows);
    }
  }

  /** A row of the tail sits at a position after the first. */
  lemma KeptFromTail(rows: seq<Entry>, e: Entry)
    requires |rows| > 0 && e in rows[1..]
    ensures exists k :: 1 <= k < |rows| && rows[k] == e
  {
    var k :| 0 <= k < |rows[1..]| && rows[1..][k] == e;
    assert rows[k + 1] == e;
  }

  lemma {:induction false} DropSorted(rows: seq<Entry>)
    requires Sorted(rows)
    ensures Sorted(DropUnstarted(rows))
  {
    if |rows| > 0 {
      var rest := DropUnstarted(rows[1..]);
      assert Sorted(rows[1..]) by {
        forall i, j | 0 <= i < j < |rows[1..]| ensures NotAfter(rows[1..][i].date, rows[1..][j].date) {
          assert rows[1..][i] == rows[i + 1] && rows[1..][j] == rows[j + 1];
        }
      }
      DropSorted(rows[1..]);
      if rows[0].start.Some? {
        forall e | e in rest ensures NotAfter(rows[0].date, e.date) {
          assert e in rows[1..];
          KeptFromTail(rows, e);
        }
        ConsSorted(rows[0], rest);
      }
    }
  }

  lemma {:induction false} DropAscending(rows: seq<Entry>)
    requires DatesAscending(rows)
    ensures DatesAscending(DropUnstarted(rows))
  {
    if |rows| > 0 {
      var rest := DropUnstarted(rows[1..]);
      assert DatesAscending(rows[1..]) by {
        forall i, j | 0 <= i < j < |rows[1..]| ensures Before(rows[1..][i].date, rows[1..][j].date) {
          assert rows[1..][i] == rows[i + 1] && rows[1..][j] == rows[j + 1];
        }
      }
      DropAscending(rows[1..]);
      if rows[0].start.Some? {
        forall e | e in rest ensures Before(rows[0].date, e.date) {
          assert e in rows[1..];
          KeptFromTail(rows, e);
        }
        ConsAscending(rows[0], rest);
      }
    }
  }

  /** `df.sort_index().dropna(subset=["activity_start"])`, the value `autocomplete` returns: the
      started rows in date order, with the net time of the input. */
  function Finish(rows: seq<Entry>): (r: seq<Entry>)
    ensures forall e :: e in r <==> e in rows && e.start.Some?
    ensures forall e :: multiset(r)[e] == if e.start.Some? then multiset(rows)[e] else 0
    ensures Sorted(r)
    ensures DistinctDates(rows) ==> DatesAscending(r)
    ensures NetMinutes(r) == NetMinutes(rows)
  {
    var sorted := SortByDate(rows);
    NetPermutation(sorted, rows);
    SortAscending(rows);
    assert forall e :: e in sorted <==> e in rows by {
      forall e ensures e in sorted <==> e in rows {
        assert e in sorted <==> e in multiset(sorted);
      }
    }
    DropOrdered(sorted);
    DropUnstarted(sorted)
  }
}

=== FILE: holidays.dfy ===
/** The holiday and work-day calendar of `schedule/_schedule.py`: the twelve public holidays of a
    year (five of them tied to Easter Sunday) and the work days of a month, which are all of its
    days except those holidays. Weekends are work days here. */
module Holidays {
  import opened Calendar

  /** Easter Sunday falls between 22 March and 25 April. */
  predicate InEasterWindow(e: Date) {
    (e.month == 3 && 22 <= e.day <= 31) || (e.month == 4 && 1 <= e.day <= 25)
  }

  /** Easter Sunday of year `y` by the anonymous Gregorian algorithm (Meeus/Jones/Butcher). */
  function Easter(y: int): (e: Date)
    requires 1 <= y
    ensures Valid(e) && e.year == y
    ensures InEasterWindow(e)
  {
    var a := y % 19;
    var b := y / 100;
    var c := y % 100;
    var d := b / 4;
    var e := b % 4;
    var f := (b + 8) / 25;
    var g := (b - f + 1) / 3;
    var h := (19 * a + b - d - g + 15) % 30;
    var i := c / 4;
    var k := c % 4;
    var l := (32 + 2 * e + 2 * i - h - k) % 7;
    var m := (a + 11 * h + 22 * l) / 451;
    EasterWindowArithmetic(a, h, l, m);
    var n := h + l - 7 * m + 114;
    Date(y, n / 31, n % 31 + 1)
  }

  /** Easter Sunday 2019 was 21 April. */
  lemma EasterIn2019()
    ensures Easter(2019) == Date(2019, 4, 21)
  {
    assert 2019 % 19 == 5 && 2019 / 100 == 20 && 2019 % 100 == 19;
    assert 20 / 4 == 5 && 20 % 4 == 0 && (20 + 8) / 25 == 1 && (20 - 1 + 1) / 3 == 6;
    assert (19 * 5 + 20 - 5 - 6 + 15) % 30 == 29;
    assert 19 / 4 == 4 && 19 % 4 == 3;
    assert (32 + 2 * 0 + 2 * 4 - 29 - 3) % 7 == 1;
    assert (5 + 11 * 29 + 22 * 1) / 451 == 0;
    assert 144 / 31 == 4 && 144 % 31 == 20;
  }

  /** Easter Sunday 2038 falls on 25 April, the last day of the window. */
  lemma EasterIn2038()
    ensures Easter(2038) == Date(2038, 4, 25)
  {
    assert 2038 % 19 == 5 && 2038 / 100 == 20 && 2038 % 100 == 38;
    assert 20 / 4 == 5 && 20 % 4 == 0 && (20 + 8) / 25 == 1 && (20 - 1 + 1) / 3 == 6;
    assert (19 * 5 + 20 - 5 - 6 + 15) % 30 == 29;
    assert 38 / 4 == 9 && 38 % 4 == 2;
    assert (32 + 2 * 0 + 2 * 9 - 29 - 2) % 7 == 5;
    assert (5 + 11 * 29 + 22 * 5) / 451 == 0;
    assert 148 / 31 == 4 && 148 % 31 == 24;
  }

  /** Easter Sunday 2285 falls on 22 March, the first day of the window. */
  lemma EasterIn2285()
    ensures Easter(2285) == Date(2285, 3, 22)
  {
    assert 2285 % 19 == 5 && 2285 / 100 == 22 && 2285 % 100 == 85;
    assert 22 / 4 == 5 && 22 % 4 == 2 && (22 + 8) / 25 == 1 && (22 - 1 + 1) / 3 == 7;
    assert (19 * 5 + 22 - 5 - 7 + 15) % 30 == 0;
    assert 85 / 4 == 21 && 85 % 4 == 1;
    assert (32 + 2 * 2 + 2 * 21 - 0 - 1) % 7 == 0;
    assert (5 + 11 * 0 + 22 * 0) / 451 == 0;
    assert 114 / 31 == 3 && 114 % 31 == 21;
  }

  /** The computus always lands on a Sunday: the weekday term `l` cancels, modulo 7, the weekday
      of 22 March plus `h` days. */
  lemma {:induction false} EasterIsSunday(y: int)
    requires 1 <= y
    ensures Weekday(Easter(y)) == 6
  {
    var a := y % 19;
    var b := y / 100;
    var c := y % 100;
    var d := b / 4;
    var e := b % 4;
    var f := (b + 8) / 25;
    var g := (b - f + 1) / 3;
    var h := (19 * a + b - d - g + 15) % 30;
    var i := c / 4;
    var k := c % 4;
    var l := (32 + 2 * e + 2 * i - h - k) % 7;
    var m := (a + 11 * h + 22 * l) / 451;
    EasterWindowArithmetic(a, h, l, m);
    var n := h + l - 7 * m + 114;
    assert Easter(y) == Date(y, n / 31, n % 31 + 1);
    MarchAprilOrdinal(y, n);
    LeapAdjusted(y);
    CenturySplit(y);
    var q := (32 + 2 * e + 2 * i - h - k) / 7;
    assert l == 32 + 2 * e + 2 * i - h - k - 7 * q;
    var o := Ordinal(Easter(y));
    assert o == 365 * (y - 1) + (25 * b + i) - b + d + 81 + h + l - 7 * m;
    SundayArithmetic(y, b, c, d, e, i, k, h, l, m, q, o);
  }

  /** The computus splits the year into its century `b = 4d + e` and the year within the
      century `c = 4i + k`; the quotients the day number needs follow from that split. */
  lemma CenturySplit(y: int)
    requires 1 <= y
    ensures var b, c := y / 100, y % 100;
      var d, e, i, k := b / 4, b % 4, c / 4, c % 4;
      && y == 100 * b + c && b == 4 * d + e && c == 4 * i + k
      && y / 4 == 25 * b + i && y / 400 == d
  {
    var b, c := y / 100, y % 100;
    var d, e, i, k := b / 4, b % 4, c / 4, c % 4;
    assert y == 4 * (25 * b + i) + k && 0 <= k < 4;
    assert y == 400 * d + (100 * e + c) && 0 <= 100 * e + c < 400;
  }

  /** The day number of the computed date is a multiple of 7, so it falls on a Sunday. The
      arithmetic is linear once the year is split into its century `b = 4d + e` and the year
      within it `c = 4i + k`. */
  lemma SundayArithmetic(y: int, b: int, c: int, d: int, e: int, i: int, k: int, h: int, l: int,
                         m: int, q: int, o: int)
    requires y == 100 * b + c && b == 4 * d + e && c == 4 * i + k
    requires l == 32 + 2 * e + 2 * i - h - k - 7 * q
    requires o == 365 * (y - 1) + (25 * b + i) - b + d + 81 + h + l - 7 * m
    ensures (o + 6) % 7 == 6
  {
    var w := 20871 * d + 5218 * e + 209 * i + 52 * k - 36 - q - m;
    assert o == 7 * w;
  }

  /** A date given as day `n - 92` of March (spilling into April) has the day number of the
      start of the year plus the days of January, February and `n - 92` March days. */
  lemma MarchAprilOrdinal(y: int, n: int)
    requires 1 <= y && 114 <= n <= 148
    ensures Valid(Date(y, n / 31, n % 31 + 1))
    ensures Ordinal(Date(y, n / 31, n % 31 + 1))
            == DaysBeforeYear(y) + (if IsLeapYear(y) then 1 else 0) + n - 33
  {
    assert DaysBeforeMonth(y, 2) == 31;
    assert DaysBeforeMonth(y, 3) == 31 + DaysInMonth(y, 2);
    assert DaysBeforeMonth(y, 4) == DaysBeforeMonth(y, 3) + 31;
    if n < 124 {
      assert n / 31 == 3 && n % 31 == n - 93;
    } else {
      assert n / 31 == 4 && n % 31 == n - 124;
    }
  }

  /** The days before year `y`, plus its leap day if it has one, count the leap days of
      years 1 to `y` inclusive. */
  lemma LeapAdjusted(y: int)
    requires 1 <= y
    ensures DaysBeforeYear(y) + (if IsLeapYear(y) then 1 else 0) == 365 * (y - 1) + y / 4 - y / 100 + y / 400
  {
    QuotientStep(y, 4);
    QuotientStep(y, 100);
    QuotientStep(y, 400);
    DivisorsNest(y);
  }

  /** The case analysis that keeps the computus inside the Easter window: the correction term `m`
      is 1 only when `h + l` is large, and it removes exactly the dates after 25 April. */
  lemma EasterWindowArithmetic(a: int, h: int, l: int, m: int)
    requires 0 <= a < 19 && 0 <= h < 30 && 0 <= l < 7
    requires m == (a + 11 * h + 22 * l) / 451
    ensures 114 <= h + l - 7 * m + 114 <= 148
  {
    assert 0 <= a + 11 * h + 22 * l < 902;
    if m == 1 {
      assert 11 * h + 22 * l >= 433;
      assert l == 6 && h >= 28;
    } else {
      assert a + 11 * h + 22 * l < 451;
      assert !(h == 29 && l == 6);
    }
  }

  /** A possible Easter Sunday of year `y`: the holiday list needs nothing more of the date. */
  predicate IsEasterOf(e: Date, y: int) {
    Valid(e) && e.year == y && InEasterWindow(e)
  }

  lemma EasterOrdinalRange(e: Date, y: int)
    requires 1 <= y && IsEasterOf(e, y)
    ensures DaysBeforeYear(y) + 81 <= Ordinal(e) <= DaysBeforeYear(y) + 116
  {
    assert DaysBeforeMonth(y, 2) == 31;
    assert DaysBeforeMonth(y, 3) == 31 + DaysInMonth(y, 2);
    assert DaysBeforeMonth(y, 4) == DaysBeforeMonth(y, 3) + 31;
  }

  /** A date whose day number lies inside year `y` belongs to year `y`. */
  lemma InsideYear(d: Date, y: int)
    requires Valid(d) && 1 <= y
    requires DaysBeforeYear(y) < Ordinal(d) <= DaysBeforeYear(y) + DaysInYear(y)
    ensures d.year == y
  {
    MonthBounds(d.year, d.month);
    if d.year < y {
      YearMonotone(d.year, y);
    } else if d.year > y {
      YearMonotone(y, d.year);
    }
  }

  /** The date `n` days from Easter Sunday `e`, for the offsets the holiday list uses. */
  function EasterOffset(e: Date, y: int, n: int): (r: Date)
    requires 1 <= y && IsEasterOf(e, y) && -2 <= n <= 50
    ensures Valid(r) && r.year == y
    ensures Ordinal(r) == Ordinal(e) + n
  {
    EasterOrdinalRange(e, y);
    var r := AddDays(e, n);
    InsideYear(r, y);
    r
  }

  predicate AllInYear(ds: seq<Date>, y: int) {
    forall i :: 0 <= i < |ds| ==> Valid(ds[i]) && ds[i].year == y
  }

  /** The holiday list of year `y` whose Easter Sunday is `e`, in the source's order: New Year,
      8 March, Good Friday (Easter - 2), Easter Sunday, Easter Monday (Easter + 1), 1 May,
      `fathers_day` (Easter + 40), `whitsun` (Easter + 50), 3 October, 25 and 26 December,
      31 December. Entries may coincide (Easter + 40 can be 1 May). */
  function HolidaysFor(y: int, e: Date): (hs: seq<Date>)
    requires 1 <= y && IsEasterOf(e, y)
    ensures |hs| == 12 && AllInYear(hs, y)
  {
    var goodFriday := EasterOffset(e, y, -2);
    var easterMonday := EasterOffset(e, y, 1);
    var fathersDay := EasterOffset(e, y, 40);
    var whitsun := EasterOffset(e, y, 50);
    [Date(y, 1, 1), Date(y, 3, 8), goodFriday, e, easterMonday, Date(y, 5, 1),
     fathersDay, whitsun, Date(y, 10, 3), Date(y, 12, 25), Date(y, 12, 26), Date(y, 12, 31)]
  }

  /** The entries of the holiday list: seven fixed dates, and five at fixed distances in days from
      Easter Sunday: 2 before, 1 after, 40 after and 50 after. */
  lemma HolidayDates(y: int, e: Date)
    requires 1 <= y && IsEasterOf(e, y)
    ensures var hs := HolidaysFor(y, e);
      && hs[0] == Date(y, 1, 1) && hs[1] == Date(y, 3, 8) && hs[5] == Date(y, 5, 1)
      && hs[8] == Date(y, 10, 3) && hs[9] == Date(y, 12, 25)
      && hs[10] == Date(y, 12, 26) && hs[11] == Date(y, 12, 31)
      && hs[3] == e
      && Ordinal(hs[2]) == Ordinal(e) - 2 && Ordinal(hs[4]) == Ordinal(e) + 1
      && Ordinal(hs[6]) == Ordinal(e) + 40 && Ordinal(hs[7]) == Ordinal(e) + 50
  {
  }

  /** The weekdays of the Easter-relative entries: Good Friday is a Friday and Easter Monday a
      Monday; `fathers_day`, Easter + 40, is a Friday (the day after Ascension Thursday), and
      `whitsun`, Easter + 50, is Whit Monday. */
  lemma HolidayWeekdays(y: int)
    requires 1 <= y
    ensures var hs := HolidayList(y);
      && Weekday(hs[2]) == 4 && Weekday(hs[3]) == 6 && Weekday(hs[4]) == 0
      && Weekday(hs[6]) == 4 && Weekday(hs[7]) == 0
  {
    EasterIsSunday(y);
    SundayOffsets(y, Easter(y));
  }

  /** The same weekdays for the holiday list of any Easter Sunday that is a Sunday. */
  lemma SundayOffsets(y: int, e: Date)
    requires 1 <= y && IsEasterOf(e, y) && Weekday(e) == 6
    ensures var hs := HolidaysFor(y, e);
      && Weekday(hs[2]) == 4 && Weekday(hs[3]) == 6 && Weekday(hs[4]) == 0
      && Weekday(hs[6]) == 4 && Weekday(hs[7]) == 0
  {
    var hs := HolidaysFor(y, e);
    HolidayDates(y, e);
    WeekdayAfter(e, hs[2], -2, 4, 0);
    WeekdayAfter(e, hs[4], 1, 0, 1);
    WeekdayAfter(e, hs[6], 40, 4, 6);
    WeekdayAfter(e, hs[7], 50, 0, 8);
  }

  /** `n` days after a Sunday comes weekday `r`, where `n + 6` is `r` more than a multiple of 7. */
  lemma WeekdayAfter(e: Date, d: Date, n: int, r: int, t: int)
    requires Valid(e) && Valid(d) && Weekday(e) == 6 && Ordinal(d) == Ordinal(e) + n
    requires 0 <= r < 7 && n + 6 == 7 * t + r
    ensures Weekday(d) == r
  {
    SundayShift(Ordinal(e), Ordinal(d), n, r, t);
  }

  /** The same on day numbers: `p` lies `n` days after a day number `o` that falls on a Sunday. */
  lemma SundayShift(o: int, p: int, n: int, r: int, t: int)
    requires (o + 6) % 7 == 6 && p == o + n
    requires 0 <= r < 7 && n + 6 == 7 * t + r
    ensures (p + 6) % 7 == r
  {
    var q := (o + 6) / 7;
    assert o + 6 == 7 * q + 6;
    assert p + 6 == 7 * (q + t) + r;
  }

  /** `get_holidays(year)`: the holiday list with the computed Easter Sunday. */
  function HolidayList(y: int): (hs: seq<Date>)
    requires 1 <= y
    ensures |hs| == 12 && AllInYear(hs, y)
    ensures hs[3] == Easter(y)
  {
    HolidaysFor(y, Easter(y))
  }

  predicate StrictlyAscending(ds: seq<Date>) {
    forall i, j :: 0 <= i < j < |ds| ==> Before(ds[i], ds[j])
  }

  /** `get_all_dates(year, month)`: every day of the month, first to last. */
  function AllDates(y: int, m: int): (ds: seq<Date>)
    requires 1 <= y && 1 <= m <= 12
    ensures |ds| == DaysInMonth(y, m)
    ensures forall d :: d in ds <==> Valid(d) && d.year == y && d.month == m
    ensures StrictlyAscending(ds)
  {
    var n := DaysInMonth(y, m);
    var ds := seq(n, i requires 0 <= i < n => Date(y, m, i + 1));
    assert forall d | Valid(d) && d.year == y && d.month == m :: ds[d.day - 1] == d;
    ds
  }

  /** The dates of `ds` that are not in `excluded`, in their original order. */
  function Without(ds: seq<Date>, excluded: set<Date>): (ws: seq<Date>)
    ensures forall d :: d in ws <==> d in ds && d !in excluded
    ensures StrictlyAscending(ds) ==> StrictlyAscending(ws)
    ensures |ws| <= |ds|
  {
    if |ds| == 0 then []
    else if ds[0] in excluded then Without(ds[1..], excluded)
    else
      var rest := Without(ds[1..], excluded);
      assert StrictlyAscending(ds) ==> forall d :: d in rest ==> Before(ds[0], d);
      [ds[0]] + rest
  }

  lemma {:induction false} WithoutIgnoresAbsent(ds: seq<Date>, excluded: set<Date>, x: Date)
    requires x !in ds
    ensures Without(ds, excluded) == Without(ds, excluded - {x})
  {
    if |ds| > 0 {
      WithoutIgnoresAbsent(ds[1..], excluded, x);
    }
  }

  /** Excluding one more date that the list holds, once, removes exactly one entry. */
  lemma {:induction false} WithoutOneMore(ds: seq<Date>, excluded: set<Date>, x: Date)
    requires StrictlyAscending(ds) && x in ds && x !in excluded
    ensures |Without(ds, excluded + {x})| == |Without(ds, excluded)| - 1
  {
    assert StrictlyAscending(ds[1..]);
    if ds[0] == x {
      assert x !in ds[1..];
      WithoutIgnoresAbsent(ds[1..], excluded + {x}, x);
      assert excluded + {x} - {x} == excluded;
    } else {
      WithoutOneMore(ds[1..], excluded, x);
    }
  }

  /** Removing the members of `excluded` from a list without repeats drops at most `|excluded|` entries. */
  lemma {:induction false} WithoutCount(ds: seq<Date>, excluded: set<Date>)
    requires StrictlyAscending(ds)
    ensures |Without(ds, excluded)| >= |ds| - |excluded|
  {
    if |ds| > 0 {
      assert StrictlyAscending(ds[1..]);
      if ds[0] in excluded {
        assert ds[0] !in ds[1..];
        WithoutIgnoresAbsent(ds[1..], excluded, ds[0]);
        WithoutCount(ds[1..], excluded - {ds[0]});
      } else {
        WithoutCount(ds[1..], excluded);
      }
    }
  }

  lemma {:induction false} DistinctCount(s: seq<Date>)
    ensures |(set d | d in s)| <= |s|
  {
    if |s| > 0 {
      DistinctCount(s[1..]);
      assert (set d | d in s) == {s[0]} + (set d | d in s[1..]);
    }
  }

  /** `get_work_days(year, month)`: the days of the month that are not holidays, ascending. */
  function WorkDays(y: int, m: int): (ws: seq<Date>)
    requires 1 <= y && 1 <= m <= 12
    ensures forall d :: d in ws <==> Valid(d) && d.year == y && d.month == m && d !in HolidayList(y)
    ensures StrictlyAscending(ws)
    ensures |ws| >= DaysInMonth(y, m) - 12
  {
    var hs := HolidayList(y);
    var excluded := set d | d in hs;
    DistinctCount(hs);
    WithoutCount(AllDates(y, m), excluded);
    Without(AllDates(y, m), excluded)
  }
}

=== FILE: hours.dfy ===
/** Net-hours accounting of `schedule/_schedule.py`: schedule rows with clock times in minutes
    after midnight, the break penalty, the net working time of a set of rows, the shrinking
    slot sizes of the autocomplete search, and the `strfdelta` clock decomposition. */
module Hours {
  import opened Base
  import opened Calendar

  /** One schedule row: the date (the DataFrame index) and the `activity_start`, `activity_end`
      and `note` columns. Times are minutes after midnight; `None` is a NaN cell. */
  datatype Entry = Entry(date: Date, start: Option<int>, end: Option<int>, note: Option<string>)

  /** Rows strictly ascending by date, so no date appears twice. */
  predicate DatesAscending(rows: seq<Entry>) {
    forall i, j :: 0 <= i < j < |rows| ==> Before(rows[i].date, rows[j].date)
  }

  /** `get_penalty`: the break, in minutes, deducted from a block of `duration` minutes. */
  function Penalty(duration: int): (p: int)
    ensures p in {0, 30, 45}
    ensures duration >= 0 ==> p <= duration
  {
    if duration > 9 * 60 then 45
    else if duration > 6 * 60 then 30
    else 0
  }

  /** The penalty is a step function of the duration with its steps just after 6 and 9 hours:
      exactly 9 hours costs 30 minutes, 9 hours 1 minute costs 45, exactly 6 hours costs
      nothing, 6 hours 1 minute costs 30. */
  lemma PenaltySteps(duration: int)
    ensures Penalty(duration) == 45 <==> duration > 540
    ensures Penalty(duration) == 30 <==> 360 < duration <= 540
    ensures Penalty(duration) == 0 <==> duration <= 360
    ensures Penalty(540) == 30 && Penalty(541) == 45 && Penalty(360) == 0 && Penalty(361) == 30
  {
  }

  /** A longer block never costs a smaller penalty. */
  lemma PenaltyMonotone(d1: int, d2: int)
    requires d1 <= d2
    ensures Penalty(d1) <= Penalty(d2)
  {
  }

  /** The net minutes one row contributes: its duration less the penalty, or nothing when
      either time is missing (a NaT duration is skipped by the sum). */
  function RowNet(e: Entry): int {
    if e.start.Some? && e.end.Some? then
      var duration := e.end.value - e.start.value;
      duration - Penalty(duration)
    else 0
  }

  /** A row that ends no earlier than it starts never contributes negative time, and never more
      than its duration. */
  lemma RowNetBounds(e: Entry)
    requires e.start.Some? && e.end.Some? && e.start.value <= e.end.value
    ensures 0 <= RowNet(e) <= e.end.value - e.start.value
  {
  }

  /** No timed row ends before it starts. */
  predicate EndsNotBeforeStarts(rows: seq<Entry>) {
    forall i :: 0 <= i < |rows| && rows[i].start.Some? && rows[i].end.Some? ==>
      rows[i].start.value <= rows[i].end.value
  }

  /** `get_net_working_hours`, in minutes: the sum of the rows' net contributions, which is never
      negative when no row ends before it starts. */
  function NetMinutes(rows: seq<Entry>): (n: int)
    ensures EndsNotBeforeStarts(rows) ==> n >= 0
  {
    if |rows| == 0 then 0
    else
      assert EndsNotBeforeStarts(rows) ==> EndsNotBeforeStarts(rows[1..]) by {
        if EndsNotBeforeStarts(rows) {
          forall i | 0 <= i < |rows[1..]| && rows[1..][i].start.Some? && rows[1..][i].end.Some?
            ensures rows[1..][i].start.value <= rows[1..][i].end.value
          {
            assert rows[1..][i] == rows[i + 1];
          }
        }
      }
      RowNet(rows[0]) + NetMinutes(rows[1..])
  }

  /** Rows missing a start or an end time add nothing to the net time. */
  lemma {:induction false} UntimedRowsCountNothing(rows: seq<Entry>)
    requires forall i :: 0 <= i < |rows| ==> rows[i].start.None? || rows[i].end.None?
    ensures NetMinutes(rows) == 0
  {
    if |rows| > 0 {
      UntimedRowsCountNothing(rows[1..]);
    }
  }

  /** Net time is additive over concatenation (`pd.concat` of two row sets). */
  lemma {:induction false} NetAppend(a: seq<Entry>, b: seq<Entry>)
    ensures NetMinutes(a + b) == NetMinutes(a) + NetMinutes(b)
  {
    if |a| == 0 {
      assert a + b == b;
    } else {
      assert (a + b)[1..] == a[1..] + b;
      NetAppend(a[1..], b);
    }
  }

  /** Net time does not depend on the order of the rows. */
  lemma {:induction false} NetPermutation(a: seq<Entry>, b: seq<Entry>)
    requires multiset(a) == multiset(b)
    ensures NetMinutes(a) == NetMinutes(b)
    decreases |a|
  {
    if |a| > 0 {
      var rest := RemoveAt(b, PositionOf(b, a[0]));
      var tail := RemoveAt(a, 0);
      assert tail == a[1..];
      NetPermutation(tail, rest);
    }
  }

  /** A position at which `x` occurs in `b`. */
  function PositionOf(b: seq<Entry>, x: Entry): (i: int)
    requires x in multiset(b)
    ensures 0 <= i < |b| && b[i] == x
  {
    if b[0] == x then 0
    else
      assert x in multiset(b[1..]) by {
        assert b == [b[0]] + b[1..];
      }
      1 + PositionOf(b[1..], x)
  }

  /** `b` without its `i`-th row: one copy fewer of that row, and its net time less. */
  function RemoveAt(b: seq<Entry>, i: int): (rest: seq<Entry>)
    requires 0 <= i < |b|
    ensures multiset(rest) == multiset(b) - multiset{b[i]}
    ensures NetMinutes(b) == RowNet(b[i]) + NetMinutes(rest)
  {
    var rest := b[..i] + b[i + 1..];
    assert b == b[..i] + ([b[i]] + b[i + 1..]);
    NetAppend(b[..i], [b[i]] + b[i + 1..]);
    NetAppend([b[i]], b[i + 1..]);
    NetAppend(b[..i], b[i + 1..]);
    rest
  }

  /** `np.arange(first, 0, -15)` in minutes: `first`, `first - 15`, ... while positive. */
  function SlotsFrom(first: int): (ss: seq<int>)
    ensures first > 0 ==> |ss| == (first + 14) / 15
    ensures first <= 0 ==> ss == []
    ensures forall i :: 0 <= i < |ss| ==> ss[i] == first - 15 * i && ss[i] > 0
    decreases first
  {
    if first <= 0 then [] else [first] + SlotsFrom(first - 15)
  }

  /** `generate_slot()`: 5 hours down to a quarter hour, in quarter-hour steps. */
  function Slots(): (ss: seq<int>)
    ensures |ss| == 20
  {
    seq(20, i requires 0 <= i < 20 => 300 - 15 * i)
  }

  /** The slots are exactly `np.arange(5, 0, -0.25)` hours. */
  lemma SlotsAreArange()
    ensures Slots() == SlotsFrom(300)
  {
    var ss := SlotsFrom(300);
    assert |ss| == 20;
    assert forall i :: 0 <= i < 20 ==> ss[i] == Slots()[i];
  }

  /** There are twenty slots, 300 down to 15 minutes, strictly decreasing, all positive whole
      quarter hours, none longer than 5 hours (so a slot never draws a penalty). */
  lemma SlotSequence()
    ensures Slots()[0] == 300 && Slots()[19] == 15
    ensures forall i, j :: 0 <= i < j < |Slots()| ==> Slots()[i] > Slots()[j]
    ensures forall i :: 0 <= i < |Slots()| ==> 0 < Slots()[i] <= 300 && Slots()[i] % 15 == 0
    ensures forall i :: 0 <= i < |Slots()| ==> Penalty(Slots()[i]) == 0
  {
  }

  /** The fields `strfdelta` formats: `days`, and hours, minutes and seconds of `tdelta.seconds`. */
  datatype Clock = Clock(days: int, hours: int, minutes: int, seconds: int)

  /** `strfdelta` on a `Timedelta` of `total` seconds: Python normalises to whole days plus
      0 <= seconds < 86400, and the two `divmod` calls split the seconds of the day. */
  function Strfdelta(total: int): (c: Clock)
    ensures c.days * 86400 + c.hours * 3600 + c.minutes * 60 + c.seconds == total
    ensures 0 <= c.hours < 24 && 0 <= c.minutes < 60 && 0 <= c.seconds < 60
  {
    var days := total / 86400;
    var secs := total % 86400;
    var hours := secs / 3600;
    var rem := secs % 3600;
    Clock(days, hours, rem / 60, rem % 60)
  }

  /** `pd.to_timedelta` of the "HH:MM:SS" text, in minutes (the days field is not printed). */
  function ClockMinutes(c: Clock): int {
    c.hours * 60 + c.minutes
  }

  /** Formatting a whole number of minutes and reading the text back gives the time of day: the
      round trip is exact below 24 hours and wraps round midnight above. */
  lemma ClockRoundTrip(minutes: int)
    ensures Strfdelta(minutes * 60).seconds == 0
    ensures ClockMinutes(Strfdelta(minutes * 60)) == minutes % 1440
  {
    var c := Strfdelta(minutes * 60);
    assert minutes * 60 == (minutes / 1440) * 86400 + (minutes % 1440) * 60;
    assert c.days == minutes / 1440;
  }
}

=== FILE: tables.dfy ===
/** The lookup tables of `schedule/_schedule.py`: weekday labels accepted in the template's
    `day_of_week` column, and German month names (the writer selects a sheet by month name). */
module Tables {
  import opened Base
  import opened Calendar

  /** `DAYS`: English and German spellings of each weekday, Monday = 0. */
  const Days: map<string, int> := map[
    "MON" := 0, "Mon" := 0, "Mo" := 0, "Montag" := 0, "Monday" := 0,
    "TUE" := 1, "Tue" := 1, "Di" := 1, "Dienstag" := 1, "Tuesday" := 1,
    "WED" := 2, "Wed" := 2, "Mi" := 2, "Mittwoch" := 2, "Wednesday" := 2,
    "THU" := 3, "Thu" := 3, "Do" := 3, "Donnerstag" := 3, "Thursday" := 3,
    "FRI" := 4, "Fri" := 4, "Fr" := 4, "Freitag" := 4, "Friday" := 4,
    "SAT" := 5, "Sat" := 5, "Sa" := 5, "Samstag" := 5, "Saturday" := 5,
    "SUN" := 6, "Sun" := 6, "So" := 6, "Sonntag" := 6, "Sunday" := 6]

  /** `MONTHS`: German month name to month number. */
  const Months: map<string, int> := map[
    "Januar" := 1, "Februar" := 2, "März" := 3, "April" := 4, "Mai" := 5, "Juni" := 6,
    "Juli" := 7, "August" := 8, "September" := 9, "Oktober" := 10, "November" := 11,
    "Dezember" := 12]

  /** `MONTHS_REV`: month number to German name, the inverse of `Months` (`MonthNameRoundTrip`). */
  const MonthsRev: map<int, string> := map[
    1 := "Januar", 2 := "Februar", 3 := "März", 4 := "April", 5 := "Mai", 6 := "Juni",
    7 := "Juli", 8 := "August", 9 := "September", 10 := "Oktober", 11 := "November",
    12 := "Dezember"]

  /** The template loader's `DAYS.get(label)`: an unknown name becomes a missing weekday. */
  function DayOfWeek(name: string): (w: Option<int>)
    ensures w.Some? <==> name in Days
    ensures w.Some? ==> 0 <= w.value < 7
  {
    if name in Days then Some(Days[name]) else None
  }

  /** Every label names a weekday from Monday (0) to Sunday (6). */
  lemma DaysAreWeekdays()
    ensures forall name :: name in Days ==> 0 <= Days[name] < 7
  {
  }

  /* The numbering agrees with the calendar, on which the template's weekday join relies: each of
     the five spellings of a weekday gives the weekday of that day in the week of Monday
     23 December 2019. */

  /** The spellings of Monday give the weekday of 2019-12-23. */
  lemma MondayLabels()
    ensures var w := Some(Weekday(Date(2019, 12, 23)));
      DayOfWeek("MON") == w && DayOfWeek("Mon") == w && DayOfWeek("Mo") == w
      && DayOfWeek("Montag") == w && DayOfWeek("Monday") == w
  {
    assert Ordinal(Date(2019, 12, 23)) == 737416;
  }

  /** The spellings of Tuesday give the weekday of 2019-12-24. */
  lemma TuesdayLabels()
    ensures var w := Some(Weekday(Date(2019, 12, 24)));
      DayOfWeek("TUE") == w && DayOfWeek("Tue") == w && DayOfWeek("Di") == w
      && DayOfWeek("Dienstag") == w && DayOfWeek("Tuesday") == w
  {
    assert Ordinal(Date(2019, 12, 24)) == 737417;
  }

  /** The spellings of Wednesday give the weekday of 2019-12-25. */
  lemma WednesdayLabels()
    ensures var w := Some(Weekday(Date(2019, 12, 25)));
      DayOfWeek("WED") == w && DayOfWeek("Wed") == w && DayOfWeek("Mi") == w
      && DayOfWeek("Mittwoch") == w && DayOfWeek("Wednesday") == w
  {
    assert Ordinal(Date(2019, 12, 25)) == 737418;
  }

  /** The spellings of Thursday give the weekday of 2019-12-26. */
  lemma ThursdayLabels()
    ensures var w := Some(Weekday(Date(2019, 12, 26)));
      DayOfWeek("THU") == w && DayOfWeek("Thu") == w && DayOfWeek("Do") == w
      && DayOfWeek("Donnerstag") == w && DayOfWeek("Thursday") == w
  {
    assert Ordinal(Date(2019, 12, 26)) == 737419;
  }

  /** The spellings of Friday give the weekday of 2019-12-27. */
  lemma FridayLabels()
    ensures var w := Some(Weekday(Date(2019, 12, 27)));
      DayOfWeek("FRI") == w && DayOfWeek("Fri") == w && DayOfWeek("Fr") == w
      && DayOfWeek("Freitag") == w && DayOfWeek("Friday") == w
  {
    assert Ordinal(Date(2019, 12, 27)) == 737420;
  }

  /** The spellings of Saturday give the weekday of 2019-12-28. */
  lemma SaturdayLabels()
    ensures var w := Some(Weekday(Date(2019, 12, 28)));
      DayOfWeek("SAT") == w && DayOfWeek("Sat") == w && DayOfWeek("Sa") == w
      && DayOfWeek("Samstag") == w && DayOfWeek("Saturday") == w
  {
    assert Ordinal(Date(2019, 12, 28)) == 737421;
  }

  /** The spellings of Sunday give the weekday of 2019-12-29. */
  lemma SundayLabels()
    ensures var w := Some(Weekday(Date(2019, 12, 29)));
      DayOfWeek("SUN") == w && DayOfWeek("Sun") == w && DayOfWeek("So") == w
      && DayOfWeek("Sonntag") == w && DayOfWeek("Sunday") == w
  {
    assert Ordinal(Date(2019, 12, 29)) == 737422;
  }

  /** Every weekday has a label. */
  lemma DaysCoverWeek()
    ensures forall w :: 0 <= w < 7 ==> w in Days.Values
  {
    assert Days["Monday"] == 0 && Days["Tuesday"] == 1 && Days["Wednesday"] == 2;
    assert Days["Thursday"] == 3 && Days["Friday"] == 4 && Days["Saturday"] == 5;
    assert Days["Sunday"] == 6;
  }

  /** `MONTHS_REV` names exactly the months 1 to 12. */
  lemma MonthsRevKeys()
    ensures forall n :: n in MonthsRev <==> 1 <= n <= 12
  {
  }

  /** Looking a month name up in `MONTHS`, then the number in `MONTHS_REV`, gives the name back. */
  lemma MonthNameRoundTrip()
    ensures forall name :: name in Months ==> Months[name] in MonthsRev && MonthsRev[Months[name]] == name
  {
  }

  /** Looking a month number up in `MONTHS_REV`, then the name in `MONTHS`, gives the number back. */
  lemma MonthNumberRoundTrip()
    ensures forall n :: n in MonthsRev ==> MonthsRev[n] in Months && Months[MonthsRev[n]] == n
  {
  }
}

=== FILE: template.dfy ===
/** Weekly-template matching, `Schedule.fill` in `schedule/_schedule.py`: every work day of the
    month is joined with the template rows for its weekday, and kept when the date lies inside
    the row's validity window. */
module Template {
  import opened Base
  import opened Calendar
  import opened Holidays
  import opened Hours
  import Tables

  /** A row of `schedule.csv` once loaded: `day_of_week` went through `DAYS.get`, so an unknown
      label is `None` and never matches a date. Times are minutes after midnight. */
  datatype TemplateRow = TemplateRow(weekday: Option<int>, validFrom: Date, validUntil: Date,
                                     start: Option<int>, end: Option<int>, note: Option<string>)

  /** A `schedule.csv` row as the loader reads it: the `day_of_week` label goes through
      `DAYS.get`. The row is valid on a date exactly when the label is listed for that date's
      weekday and the date lies inside the validity window. */
  function LoadRow(name: string, validFrom: Date, validUntil: Date, start: Option<int>,
                   end: Option<int>, note: Option<string>): (t: TemplateRow)
    ensures forall d :: Valid(d) ==>
              (ValidOn(t, d) <==> name in Tables.Days && Tables.Days[name] == Weekday(d)
                                  && NotAfter(validFrom, d) && NotAfter(d, validUntil))
    ensures t.weekday.None? <==> name !in Tables.Days
  {
    TemplateRow(Tables.DayOfWeek(name), validFrom, validUntil, start, end, note)
  }

  /** `t` is a row for `d`'s weekday and `valid_from <= d <= valid_until`. */
  predicate ValidOn(t: TemplateRow, d: Date)
    requires Valid(d)
  {
    t.weekday == Some(Weekday(d)) && NotAfter(t.validFrom, d) && NotAfter(d, t.validUntil)
  }

  /** Some template row is valid on `d`. */
  predicate Covered(template: seq<TemplateRow>, d: Date)
    requires Valid(d)
  {
    exists t :: t in template && ValidOn(t, d)
  }

  /** The schedule row a template row gives on date `d`. */
  function EntryFrom(d: Date, t: TemplateRow): Entry {
    Entry(d, t.start, t.end, t.note)
  }

  /** The template rows whose `day_of_week` is `w`, in template order. */
  function RowsForWeekday(template: seq<TemplateRow>, w: int): (rs: seq<TemplateRow>)
    ensures forall t :: t in rs <==> t in template && t.weekday == Some(w)
    ensures forall t :: multiset(rs)[t] == if t.weekday == Some(w) then multiset(template)[t] else 0
  {
    if |template| == 0 then []
    else
      assert template == [template[0]] + template[1..];
      if template[0].weekday == Some(w) then [template[0]] + RowsForWeekday(template[1..], w)
      else RowsForWeekday(template[1..], w)
  }

  /** The merged row a work day gets when its weekday has at most one template row. */
  function MatchOf(template: seq<TemplateRow>, d: Date): Option<TemplateRow>
    requires Valid(d)
  {
    var rs := RowsForWeekday(template, Weekday(d));
    if |rs| == 0 then None else Some(rs[0])
  }

  /** The rows the left merge yields for one work day: each matching template row, or a single
      row without template data when none matches. */
  function MergedRows(template: seq<TemplateRow>, d: Date): (ms: seq<Option<TemplateRow>>)
    requires Valid(d)
    ensures |ms| >= 1
  {
    var rs := RowsForWeekday(template, Weekday(d));
    if |rs| == 0 then [None] else seq(|rs|, i requires 0 <= i < |rs| => Some(rs[i]))
  }

  /** `df.merge(template, on="day_of_week", how="left")`: the merged rows of each work day, in
      work-day order. */
  function MergeLeft(days: seq<Date>, template: seq<TemplateRow>): (merged: seq<Option<TemplateRow>>)
    requires forall d :: d in days ==> Valid(d)
    ensures |merged| >= |days|
  {
    if |days| == 0 then []
    else MergedRows(template, days[0]) + MergeLeft(days[1..], template)
  }

  /** The merge yields exactly one row per work day precisely when no work day's weekday has two
      template rows, and then the row at position `i` belongs to the `i`-th work day, so the
      positional `set_index(idx)` pairs every row with its own date. */
  lemma MergeAligned(days: seq<Date>, template: seq<TemplateRow>)
    requires forall d :: d in days ==> Valid(d)
    ensures |MergeLeft(days, template)| == |days| <==>
            forall d :: d in days ==> |RowsForWeekday(template, Weekday(d))| <= 1
    ensures |MergeLeft(days, template)| == |days| ==>
            forall i :: 0 <= i < |days| ==> MergeLeft(days, template)[i] == MatchOf(template, days[i])
  {
    MergeLength(days, template);
    if |MergeLeft(days, template)| == |days| {
      forall i | 0 <= i < |days| ensures MergeLeft(days, template)[i] == MatchOf(template, days[i]) {
        MergeAt(days, template, i);
      }
    }
  }

  lemma {:induction false} MergeLength(days: seq<Date>, template: seq<TemplateRow>)
    requires forall d :: d in days ==> Valid(d)
    ensures |MergeLeft(days, template)| == |days| <==>
            forall d :: d in days ==> |RowsForWeekday(template, Weekday(d))| <= 1
  {
    if |days| > 0 {
      MergeLength(days[1..], template);
      assert forall d :: d in days ==> d == days[0] || d in days[1..];
    }
  }

  lemma {:induction false} MergeAt(days: seq<Date>, template: seq<TemplateRow>, i: int)
    requires forall d :: d in days ==> Valid(d)
    requires |MergeLeft(days, template)| == |days| && 0 <= i < |days|
    ensures MergeLeft(days, template)[i] == MatchOf(template, days[i])
  {
    var head := MergedRows(template, days[0]);
    var tail := MergeLeft(days[1..], template);
    assert |head| == 1 && |tail| == |days| - 1;
    if i > 0 {
      MergeAt(days[1..], template, i - 1);
      assert days[i] == days[1..][i - 1];
    }
  }

  /** Position `i` of the merge carries a template row and its work day lies inside the row's
      validity window. */
  predicate KeepsAt(days: seq<Date>, merged: seq<Option<TemplateRow>>, i: int)
    requires |days| == |merged| && 0 <= i < |days|
  {
    merged[i].Some? && NotAfter(merged[i].value.validFrom, days[i]) && NotAfter(days[i], merged[i].value.validUntil)
  }

  /** The filter `valid_from <= date <= valid_until` over the merged rows paired positionally
      with the work days; rows without template data compare as false and are dropped. */
  function KeepValid(days: seq<Date>, merged: seq<Option<TemplateRow>>): (kept: seq<Entry>)
    requires |days| == |merged|
    ensures StrictlyAscending(days) ==> DatesAscending(kept)
    ensures forall e :: e in kept ==>
              exists i :: 0 <= i < |days| && KeepsAt(days, merged, i) && e == EntryFrom(days[i], merged[i].value)
    ensures forall i :: 0 <= i < |days| && KeepsAt(days, merged, i) ==> EntryFrom(days[i], merged[i].value) in kept
  {
    if |days| == 0 then []
    else
      var rest := KeepValid(days[1..], merged[1..]);
      assert forall e :: e in rest ==> e.date in days[1..];
      if KeepsAt(days, merged, 0) then [EntryFrom(days[0], merged[0].value)] + rest else rest
  }

  /** `Schedule.fill` on the month's work days `idx`. */
  function FillDays(idx: seq<Date>, template: seq<TemplateRow>): (r: Result<seq<Entry>>)
    requires |idx| > 0 && StrictlyAscending(idx) && forall d :: d in idx ==> Valid(d)
    ensures r.Ok? <==> forall d :: d in idx ==> |RowsForWeekday(template, Weekday(d))| <= 1
    ensures r.Ok? ==> |r.value| >= 1 && DatesAscending(r.value)
    ensures r.Ok? ==> forall e :: e in r.value ==> e.date in idx
    ensures r.Ok? && (exists d :: d in idx && Covered(template, d)) ==>
              && (forall e :: e in r.value ==> exists t :: t in template && ValidOn(t, e.date) && e == EntryFrom(e.date, t))
              && (forall d :: d in idx && Covered(template, d) ==> exists e :: e in r.value && e.date == d)
    ensures r.Ok? && !(exists d :: d in idx && Covered(template, d)) ==> r.value == [Entry(idx[0], None, None, None)]
  {
    var merged := MergeLeft(idx, template);
    MergeAligned(idx, template);
    if |merged| != |idx| then Err(IndexLengthMismatch)
    else
      var kept := KeepValid(idx, merged);
      KeptFromTemplate(idx, template, merged);
      CoveredKept(idx, template, merged);
      if |kept| == 0 then Ok([Entry(idx[0], None, None, None)])
      else
        assert kept[0] in kept && kept[0].date in idx && Covered(template, kept[0].date);
        Ok(kept)
  }

  /** `Schedule.fill(year, month)`. The left merge and the positional `set_index(idx)` fail with
      `IndexLengthMismatch` unless every work day's weekday has at most one template row; when
      they succeed, the kept rows are the work days some template row is valid on, each with
      that row's times and note, ascending by date. When no work day is kept the result is one
      scaffold row for the first work day with every column empty. */
  function Fill(y: int, m: int, template: seq<TemplateRow>): (r: Result<seq<Entry>>)
    requires 1 <= y && 1 <= m <= 12
    ensures r.Ok? <==> forall d :: d in WorkDays(y, m) ==> |RowsForWeekday(template, Weekday(d))| <= 1
    ensures r.Ok? ==> |r.value| >= 1 && DatesAscending(r.value)
    ensures r.Ok? ==> forall e :: e in r.value ==> e.date in WorkDays(y, m)
    ensures r.Ok? && (exists d :: d in WorkDays(y, m) && Covered(template, d)) ==>
              && (forall e :: e in r.value ==> exists t :: t in template && ValidOn(t, e.date) && e == EntryFrom(e.date, t))
              && (forall d :: d in WorkDays(y, m) && Covered(template, d) ==> exists e :: e in r.value && e.date == d)
    ensures r.Ok? && !(exists d :: d in WorkDays(y, m) && Covered(template, d)) ==>
              r.value == [Entry(WorkDays(y, m)[0], None, None, None)]
  {
    var idx := WorkDays(y, m);
    assert |idx| > 0;
    FillDays(idx, template)
  }

  /** Every row of the merge belongs to the work day in the same position. */
  predicate Aligned(idx: seq<Date>, template: seq<TemplateRow>, merged: seq<Option<TemplateRow>>)
    requires forall d :: d in idx ==> Valid(d)
  {
    |merged| == |idx| && forall i :: 0 <= i < |idx| ==> merged[i] == MatchOf(template, idx[i])
  }

  /** Every kept row is a work day with a template row valid on it, carrying that row's data. */
  lemma KeptFromTemplate(idx: seq<Date>, template: seq<TemplateRow>, merged: seq<Option<TemplateRow>>)
    requires forall d :: d in idx ==> Valid(d)
    requires Aligned(idx, template, merged)
    ensures forall e :: e in KeepValid(idx, merged) ==>
              e.date in idx && exists t :: t in template && ValidOn(t, e.date) && e == EntryFrom(e.date, t)
  {
    forall e | e in KeepValid(idx, merged)
      ensures e.date in idx && exists t :: t in template && ValidOn(t, e.date) && e == EntryFrom(e.date, t)
    {
      var i :| 0 <= i < |idx| && merged[i].Some?
              && NotAfter(merged[i].value.validFrom, idx[i]) && NotAfter(idx[i], merged[i].value.validUntil)
              && e == EntryFrom(idx[i], merged[i].value);
      var t := merged[i].value;
      assert t in RowsForWeekday(template, Weekday(idx[i]));
      assert ValidOn(t, e.date);
    }
  }

  /** Every work day some template row is valid on is kept, when no weekday has two rows. */
  lemma CoveredKept(idx: seq<Date>, template: seq<TemplateRow>, merged: seq<Option<TemplateRow>>)
    requires forall d :: d in idx ==> Valid(d)
    requires forall d :: d in idx ==> |RowsForWeekday(template, Weekday(d))| <= 1
    requires Aligned(idx, template, merged)
    ensures forall d :: d in idx && Covered(template, d) ==> exists e :: e in KeepValid(idx, merged) && e.date == d
  {
    forall d | d in idx && Covered(template, d)
      ensures exists e :: e in KeepValid(idx, merged) && e.date == d
    {
      var t :| t in template && ValidOn(t, d);
      var i :| 0 <= i < |idx| && idx[i] == d;
      var rs := RowsForWeekday(template, Weekday(d));
      assert t in rs;
      OnlyRow(rs, t);
      assert merged[i] == Some(t);
      assert EntryFrom(d, t) in KeepValid(idx, merged);
    }
  }

  /** A list of at most one row that holds `t` starts with `t`. */
  lemma OnlyRow(rs: seq<TemplateRow>, t: TemplateRow)
    requires |rs| <= 1 && t in rs
    ensures rs[0] == t
  {
  }
}
